=== FILE: README.md ===
# Solys core in Dafny

This project models and proves properties of the core of Solys, a small
2-D gravity simulator written in C++ over SFML. Three parts make up the core:

- **`Config`** (src/config.cpp, include/config.hpp) reads an INI-like file.
  A `[name]` header opens a section. Each `name = value;` chunk up to a `;`
  is one variable. A `-` at, after or two after the current position ends the
  section. `get_value` looks values up as text, as an unsigned number or as a
  flag.
- **`GameObject`** (src/game_object.cpp) holds a position, velocity, mass and
  name. A static counter names new objects, and there are pure calculations
  between two objects.
- **`World`** (src/world.cpp) holds the list of objects. Its `update(time)`
  visits them in order. A celestial body is pulled once by every other object
  that `compare` does not find equal, and is then advanced.

Modules, one file each:

| file | module | what it holds |
|---|---|---|
| numeric.dfy | `Options`, `Numeric` | `Option`; `std::to_string` on `unsigned int` and `std::stoi` (after `strtol`, C11 section 7.22.1.4) |
| config_types.dfy | `ConfigTypes` | `Var`, `Section`, and the "clean text" predicate |
| config_text.dfy | `ConfigText` | character erasure, `splitstr` and the `getline` loop behind it |
| config_parse.dfy | `ConfigParse` | `parse`: a value-level definition (`VarsFrom`, `SectionsFrom`, `ParseData`), its properties, and the imperative scan proved equal to it |
| config.dfy | `Config` | the `Config` class: `load` and the `get_value` specialisations |
| vectors.dfy | `Vectors` | `sf::Vector2f` over the reals |
| game_object.dfy | `GameObject` | the id counter and the `GameObject` class |
| world.dfy | `World` | the update schedule as values (`Gravitate`, `Step`, `Pass`), and the `World` class proved to follow it |

How the code is modelled:

- **Undefined behaviour is a precondition.** `parse` reads past the end of
  its input on malformed text. The model marks those inputs `Undefined`, and
  `Parse` requires that its input avoids them. Reading `data[data.size()]` is
  the string's terminating `'\0'`, and that read is modelled.
- **Text is bytes.** Each `char` of a Dafny string stands for one byte of
  the `std::string`. The offsets `i + 1` and `i + 2` of the section-end test
  and the chunk bounds of `parse` are byte offsets. UTF-8 text is given byte
  by byte: multi-byte characters are not decoded. Passed as decoded
  characters, a line such as `é-x=1;` would end its section, while the C++
  code sees the `-` one byte later and reads the variable.
- **The ends-with-`;` check never fires.** That check (src/config.cpp:186-189)
  is kept as a branch. `NeverRejected` proves it is never taken, because the
  chunk always ends with the `;` that stopped the read loop.
- **The section-end test.** It is `data[i] != '-' && data[i + 1] != '-' &&
  data[i + 2] != '-'` (src/config.cpp:174), so a `-` in the first two
  characters of a variable line ends the section. `HyphenAfterHeader` shows
  this: the line `v-sync=1;` is never read.
- **Single-precision kernels are parameters.** The float and transcendental
  kernels are the gravitational force, the acceleration, `atan2` in degrees,
  the angle-to-vector conversion, and each object type's own `update(time)`.
  They are the fields of a `Physics` value passed to every operation that
  uses them. Everything proved about the schedule therefore holds for any
  choice of them. `Atan2InRange` states the C11 range of `atan2` (section
  7.12.4.4). It is never assumed: it appears only as the hypothesis of the
  angle range in the contracts of `Angle` and `CalcAngle`.
- **Vectors and scalars are exact reals.**
- **The static counter is an object.** `GameObject::id` becomes an
  `IdCounter` passed to the constructor and destructor. It wraps modulo 2^32
  like an `unsigned int`.
- **Where the declarations disagree with the definitions, the model follows
  the .cpp files.** include/world.hpp and include/game_object.hpp declare `update(const sf::Clock&)`
  while src/world.cpp defines `update(const float)`. `id`, `set_name` and
  `get_name` are defined but not declared.
- **Three consequences of the code worth knowing:**
  - The id counter is a live count, so a new object can share a live
    object's name (`NameReuse`).
  - `compare` skips any equal object, not only the body itself, so identical
    twins do not attract each other (`GravitateAllSkipped`).
  - `accelerate` runs once per other object, each time from the velocity the
    previous call left (`Gravitate`).

## Model

| member | source | states |
|---|---|---|
| `Numeric.Decimal` | src/game_object.cpp:35 | `std::to_string` of a counter value is a non-empty string of digits with no leading zero unless the value is 0 |
| `Numeric.DecimalValue` | src/game_object.cpp:35 | reading the decimal name back gives the counter value |
| `Numeric.DecimalInjective` | src/game_object.cpp:35 | two counter values with the same name are equal |
| `Numeric.StoI` | src/config.cpp:98 | `std::stoi` in the "C" locale: leading white space (`isspace`) skipped, an optional sign, the longest digit run; no value when no digit follows (`invalid_argument`) or the value does not fit a 32-bit `int` (`out_of_range`); see the `Numeric.StoI` line under "Left out" |
| `Numeric.StoIOfDecimal` | src/config.cpp:98 | `std::stoi` of a numeral that fits an `int`, followed by a non-digit or nothing, yields that number |
| `ConfigText.Without` | src/config.cpp:193-195 | the text with every occurrence of one character erased; `WithoutSingle`, `WithoutAppend` and `WithoutChars` state its properties |
| `ConfigText.Strip` | src/config.cpp:193-195 | the three erasures in the order of the C++ code: blank, tab, carriage return; `StripChars` and `StripAppend` state its properties |
| `ConfigText.WithoutChars` | src/config.cpp:193-195 | a character is in the result exactly when it is in the input and is not the erased one |
| `ConfigText.WithoutSingle` | src/config.cpp:193-195 | a one-character text loses its character if it is the erased one and keeps it otherwise |
| `ConfigText.WithoutAppend` | src/config.cpp:193-195 | erasing from a concatenation erases from each part; with `WithoutSingle`, every other character stays, in its order and as often as it occurs |
| `ConfigText.StripAppend` | src/config.cpp:193-195 | stripping a concatenation strips each part, so the characters that stay keep their order |
| `ConfigText.WithoutAbsent` | src/config.cpp:193-195 | erasing a character that does not occur changes nothing |
| `ConfigText.StripChars` | src/config.cpp:193-195 | after the three erasures no blank, tab or carriage return is left, and no character was added |
| `ConfigText.SplitFrom` | src/config.cpp:136-148 | the tokens `getline` reads from index `i` on: each runs to the next delimiter, which is consumed; a last token without a delimiter is kept; nothing is read at the end |
| `ConfigText.Split` | src/config.cpp:136-148 | the tokens of the whole string; `SplitTokens`, `SplitEmptyIff`, `SplitJoin` and `SplitCons` state its properties |
| `ConfigText.SplitTokens` | src/config.cpp:136-148 | no token of `splitstr` contains the delimiter, and every character of a token comes from the input |
| `ConfigText.SplitEmptyIff` | src/config.cpp:136-148 | `splitstr` yields zero tokens exactly when nothing is left to read |
| `ConfigText.SplitJoin` | src/config.cpp:136-148 | joining the tokens with the delimiter gives the input back, less the one trailing delimiter `getline` swallows |
| `ConfigText.SplitCons` | src/config.cpp:136-148 | text without the delimiter, the delimiter, then more text, splits into that text followed by the tokens of the rest |
| `ConfigText.SplitFirstTwo` | src/config.cpp:198-202 | the first token is the text before the first delimiter and the second the text between the first and second delimiter |
| `ConfigText.Getline` | src/config.cpp:142 | one `getline` call takes the next token off the stream and moves past its delimiter |
| `ConfigText.SplitStr` | src/config.cpp:136-148 | the loop returns the tokens of the input; none contains the delimiter; joined they give the input back less a trailing delimiter; none exactly for the empty string |
| `ConfigParse.MakeVar` | src/config.cpp:190-202 | the variable one chunk makes: strip, split at `=`, name and value from tokens 0 and 1; none when fewer than two tokens, where `tokens[1]` is out of range |
| `ConfigParse.SectionsFrom` | src/config.cpp:157-213 | the sections the scan pushes from index `i` on, or whether it rejects or has undefined behaviour; `SectionStep`, `SectionsInOrder`, `SectionsClean` and `NeverRejected` state its properties |
| `ConfigParse.ParseData` | src/config.cpp:150-215 | what `parse` returns: the sections, or nothing for input on which its behaviour is undefined |
| `ConfigParse.VarsFrom` | src/config.cpp:174-205 | the variable loop, when defined, stops at an index in the data at or after where it started |
| `ConfigParse.VarsStep` | src/config.cpp:176-204 | a variable loop that read a variable read it from the text up to the next `;`, and the loop goes on after that `;` |
| `ConfigParse.SectionStep` | src/config.cpp:159-211 | a section at a `[` is named by the text up to the first `]`, holds the variables read from the end of that line, and the scan resumes after where the variable loop stopped |
| `ConfigParse.VarsNeverRejected` | src/config.cpp:179-189 | the variable loop never fails the ends-with-`;` check |
| `ConfigParse.NeverRejected` | src/config.cpp:186-189 | `parse` never takes the exit that discards all sections |
| `ConfigParse.MakeVarFields` | src/config.cpp:190-202 | a variable's name is the stripped text before the first `=` and its value the text between the first and second `=`; both are free of blanks, tabs, carriage returns and `=` |
| `ConfigParse.VarsInOrder` | src/config.cpp:174-205 | a section's variables are its chunks in order: each starts where the end test fails, runs to the next `;`, and the next one starts after it; the loop stops at the first position where the end test passes |
| `ConfigParse.SectionsInOrder` | src/config.cpp:157-212 | sections come out in the order of their `[` headers, each named by the text between `[` and the first `]` after it |
| `ConfigParse.VarsClean` | src/config.cpp:193-204 | every variable one section's loop stores has a clean name and value |
| `ConfigParse.SectionsClean` | src/config.cpp:157-211 | every variable of every parsed section has a clean name and value |
| `ConfigParse.HyphenAfterHeader` | src/config.cpp:174 | `[graphics]` followed by the line `v-sync=1;` parses to one empty section: the `-` ends the section before the line is read |
| `ConfigParse.OneVariable` | src/config.cpp:157-215 | `[w]`, `x = 1;`, `-` parses to section `w` with the one variable `x` = `1` |
| `ConfigParse.NoHeader` | src/config.cpp:157-159 | text without a `[` yields no section |
| `ConfigParse.SectionEnds` | src/config.cpp:174 | the section-end test: the current, next or next-but-one character is `-`, the character at the end of the data being the terminating `'\0'`; `VarsEnd` and `HyphenAfterHeader` are about it |
| `ConfigParse.VarsEnd` | src/config.cpp:174 | the variable loop stops, with nothing read, where the end test passes |
| `ConfigParse.ChunkRead` | src/config.cpp:176-204 | in a defined scan, a chunk whose end test fails has a `;` ahead and splits into at least two tokens, so `tokens[1]` exists |
| `ConfigParse.HeaderFound` | src/config.cpp:162-171 | in a defined scan, a `[` has a `]` and then a newline before the end of the data |
| `ConfigParse.ReadChunk` | src/config.cpp:176-182 | the read loop collects the text after the current character up to and including the next `;` |
| `ConfigParse.ReadVar` | src/config.cpp:176-204 | one round of the variable loop reads the variable the value-level loop puts first, and resumes where it resumes |
| `ConfigParse.ReadVars` | src/config.cpp:174-205 | the variable loop pushes the value-level loop's variables onto the section's list and stops where that loop stops |
| `ConfigParse.ReadName` | src/config.cpp:162-166 | the name loop appends the text up to the first `]` to the section's name and returns the index of that `]` |
| `ConfigParse.ReadSection` | src/config.cpp:159-205 | one section from its `[`: the section's name and variables are extended by exactly those of the value-level section at that `[`, and the scan resumes after the stop index |
| `ConfigParse.SkipLine` | src/config.cpp:168-171 | the index moves to the first newline at or after the `]` |
| `ConfigParse.Parse` | src/config.cpp:150-215 | `parse` returns exactly the sections of the value-level definition; this needs the section accumulators to be cleared after every push (src/config.cpp:210-211), since each section is appended to them |
| `Config.JoinLines` | src/config.cpp:43-46 | the text `load` builds: every line followed by a newline; `JoinLinesAppend` and `JoinLinesSplit` state its properties |
| `Config.JoinLinesAppend` | src/config.cpp:43-46 | each line read appends that line and a newline to the text |
| `Config.JoinLinesSplit` | src/config.cpp:43-46 | splitting the text `load` builds at newlines gives back exactly the lines read |
| `Config.LastSection` | src/config.cpp:64-77 | the section found is named `sname` and no later one is; none is found only when no section has the name |
| `Config.FirstVar` | src/config.cpp:79-88 | the variable found is named `vname` and no earlier one is; none is found only when no variable has the name |
| `Config.Lookup` | src/config.cpp:58-89 | the string lookup: the first matching variable of the last matching section, else "null"; `LookupHit`, `LookupNoSection` and `LookupNoVar` state its cases |
| `Config.LookupHit` | src/config.cpp:58-89 | the string lookup returns the value of the first matching variable of the last matching section |
| `Config.LookupNoSection` | src/config.cpp:74-77 | without a matching section the lookup returns "null" |
| `Config.LookupNoVar` | src/config.cpp:80-88 | when the last matching section lacks the variable the lookup returns "null", even if an earlier section of that name has it |
| `Config.ToUnsigned` | src/config.cpp:91-104 | the unsigned reading is below 2^32, is 0 when `stoi` throws, equals a non-negative parsed value, and is a negative parsed value plus 2^32 |
| `Config.ToBool` | src/config.cpp:121-134 | the flag is true only if `stoi` succeeded |
| `Config.ToBoolNonZero` | src/config.cpp:121-134 | the flag is true exactly when `stoi` succeeds with a non-zero integer |
| `Config.UnsignedOfDecimal` | src/config.cpp:91-104 | a value written as a decimal numeral that fits an `int` reads back as itself |
| `Config.BoolIsUnsignedNonZero` | src/config.cpp:91-134 | the flag is true exactly when the unsigned reading is non-zero |
| `Config.NullReadsAsZero` | src/config.cpp:91-134 | the "null" placeholder reads as 0 and as false |
| `Config.MinusOneWraps` | src/config.cpp:98 | "-1" reads as 2^32 - 1 through the unsigned cast |
| `Config.UnknownType` | include/config.hpp:99 | the message the generic `get_value` throws, built from the fixed prefix and the two names; `UnknownTypeNames` states its layout |
| `Config.UnknownTypeNames` | include/config.hpp:96-101 | the thrown message is "Unknown type!" followed by the section name, ", " and the variable name |
| `Config.Config.constructor` | include/config.hpp:93 | a new `Config` holds no sections |
| `Config.Config.Load` | src/config.cpp:32-56 | a file that cannot be opened gives false and leaves the sections alone; otherwise the sections are the parse of the lines each followed by a newline, and the result is true exactly when there is at least one section |
| `Config.Config.GetString` | src/config.cpp:58-89 | the scan with the `found` flag returns the lookup value; it changes nothing |
| `Config.Config.GetUnsigned` | src/config.cpp:91-104 | the unsigned reading of the looked-up text |
| `Config.Config.GetBool` | src/config.cpp:121-134 | the flag reading of the looked-up text |
| `Config.Config.GetValue` | include/config.hpp:96-101 | the `std::string`, `unsigned int` and `bool` specialisations for their types, and the "Unknown type!" exception for any type other than these and `float` |
| `Vectors.NormSq` | src/game_object.cpp:122-126 | the sum of squared components is never negative and is zero only for the zero vector |
| `Vectors.SubZero` | src/game_object.cpp:124 | the difference of two positions is zero exactly when they are equal |
| `Vectors.SubFlip` | src/game_object.cpp:122-126 | the difference in either direction has the same squared length |
| `GameObject.NormaliseAngle` | src/game_object.cpp:139-144 | the result is the raw angle, or the raw angle plus 360, less 90; a raw angle in [-180, 180] gives a result in [-90, 270) |
| `GameObject.DistSq` | src/game_object.cpp:122-126 | the squared distance is never negative and zero exactly when the positions are equal |
| `GameObject.DistSqSymmetric` | src/game_object.cpp:122-126 | the squared distance is the same from either object |
| `GameObject.Angle` | src/game_object.cpp:133-145 | when `atan2` is within [-180, 180] degrees the angle lies in [-90, 270) |
| `GameObject.IdCounter.constructor` | src/game_object.cpp:30 | the counter starts at 0 with no object made or destroyed |
| `GameObject.GameObject.constructor` | src/game_object.cpp:32-37 | position and velocity start at (0, 0); the object is named by the decimal of the counter, which then goes up by one modulo 2^32; the counter stays the live count modulo 2^32 |
| `GameObject.GameObject.Destroy` | src/game_object.cpp:39-42 | the counter goes down by one modulo 2^32, so 0 wraps to 2^32 - 1; it stays the live count modulo 2^32 |
| `GameObject.GameObject.GetPos` | src/game_object.cpp:44-47 | the position; the setters' and `accelerate`'s contracts are stated through it |
| `GameObject.GameObject.GetVel` | src/game_object.cpp:49-52 | the velocity |
| `GameObject.GameObject.GetMass` | src/game_object.cpp:74-77 | the mass |
| `GameObject.GameObject.GetName` | src/game_object.cpp:170-172 | the name; `SetName` is stated through it |
| `GameObject.GameObject.SetPos` | src/game_object.cpp:54-57 | the position read back is the one set; velocity, mass and name are unchanged |
| `GameObject.GameObject.SetPosXY` | src/game_object.cpp:59-62 | the position read back is the vector of the two components; the rest is unchanged |
| `GameObject.GameObject.SetVel` | src/game_object.cpp:64-67 | the velocity read back is the one set; position, mass and name are unchanged |
| `GameObject.GameObject.SetVelXY` | src/game_object.cpp:69-72 | the velocity read back is the vector of the two components; the rest is unchanged |
| `GameObject.GameObject.SetName` | src/game_object.cpp:165-173 | the name read back is the one set; position, velocity and mass are unchanged |
| `GameObject.GameObject.Accelerate` | src/game_object.cpp:84-87 | each velocity component grows by the matching component of the acceleration; position, mass and name are unchanged |
| `GameObject.GameObject.AccelerateXY` | src/game_object.cpp:89-92 | the velocity grows by the vector of the two components; the rest is unchanged |
| `GameObject.GameObject.Advance` | src/world.cpp:68 | the object's own `update(time)` replaces its state and keeps its name |
| `GameObject.GameObject.Compare` | src/game_object.cpp:155-163 | `compare` holds exactly when position, velocity and mass are all equal |
| `GameObject.GameObject.CalcDistanceSq` | src/game_object.cpp:122-126 | never negative, and zero exactly when the two positions are equal |
| `GameObject.GameObject.CalcGravitation` | src/game_object.cpp:128-131 | the gravitation kernel applied to `G`, both masses and the squared distance |
| `GameObject.GameObject.CalcAcceleration` | src/game_object.cpp:94-97 | the acceleration kernel applied to the force and the object's mass |
| `GameObject.GameObject.CalcAngle` | src/game_object.cpp:133-145 | when `atan2` is within [-180, 180] degrees the angle lies in [-90, 270) |
| `GameObject.CompareEquivalence` | src/game_object.cpp:155-163 | over exact reals `compare` is reflexive and symmetric |
| `GameObject.NameReuse` | src/game_object.cpp:30-42 | make two objects, destroy the first, make a third: the third is a different object with the same name "1" as the live second |
| `World.Pull` | src/world.cpp:80-84 | the velocity change one other object causes: the direction of the angle between them, scaled by the acceleration and by `time` |
| `World.PullFrom` | src/world.cpp:78-85 | an object that is the body itself or compares equal changes nothing; any other adds one pull to the velocity; position and mass never change |
| `World.Gravitate` | src/world.cpp:76-86 | the loop over the objects leaves the body's position and mass as they were |
| `World.Step` | src/world.cpp:53-62 | one turn of `update(time)` keeps the object's type |
| `World.Pass` | src/world.cpp:49-64 | after n turns the list has the same length and types, and the objects from index n on are untouched |
| `World.PassKeeps` | src/world.cpp:51-56 | once its turn is over, an object is not changed again in the same pass |
| `World.PassSnapshot` | src/world.cpp:49-89 | during its turn an object sees every earlier object already updated and every later object as it was before the pass |
| `World.PlainStep` | src/world.cpp:59-69 | an object that is not a celestial body is only advanced |
| `World.GravitateAllSkipped` | src/world.cpp:76-86 | when every other object compares equal to the body, its velocity is unchanged, so identical twins do not attract |
| `World.LoneBody` | src/world.cpp:71-89 | a body alone in the world is only advanced |
| `World.TwoBodies` | src/world.cpp:49-89 | with two distinct bodies, the first is pulled by the second as it was; the second is pulled by the first as the first's turn left it |
| `World.Owned` | src/world.cpp:36-42 | the count of entries the destructor deletes equals the length exactly when no entry is null |
| `World.World.constructor` | src/world.cpp:30-32 | `G` is set once and the world starts empty |
| `World.World.Spawn` | src/world.cpp:103-106 | the object is appended at the end; earlier entries and their order are kept |
| `World.World.UpdateObject` | src/world.cpp:66-69 | the plain overload runs the object's own `update` and nothing else |
| `World.World.UpdateCelestial` | src/world.cpp:71-89 | the celestial overload applies the pulls of `Gravitate` in collection order, then advances; only that object changes |
| `World.World.PullAll` | src/world.cpp:76-86 | the loop over all objects leaves the body in the state `Gravitate` gives from the states before the loop, and keeps its name |
| `World.World.PullOnce` | src/world.cpp:78-85 | one round of the loop: nothing when `compare` holds, which it always does for the body itself; otherwise one `accelerate` |
| `World.World.UpdateAt` | src/world.cpp:53-61 | the dispatch on the object's type replaces exactly that object by its `Step` |
| `World.World.Update` | src/world.cpp:49-64 | the list is unchanged, and the objects end in the state `Pass` gives after one turn each in collection order |
| `World.World.Destroy` | src/world.cpp:34-45 | null entries are skipped and every non-null entry is destroyed once, so the counter goes down once per owned object; the list is left empty |
| `World.World.GetObjs` | src/world.cpp:108-111 | the list of objects, in spawn order |
| `World.SpawnOrder` | src/world.cpp:103-111 | spawning two objects into a new world makes `get_objs` list them in that order |

## Left out

- `get_value<float>` (src/config.cpp:106-119) is left out. It depends on `std::stof` and single-precision parsing. `GetValue`'s `AsOther` covers only types other than `std::string`, `unsigned int`, `bool` and `float`.
- Opening and reading the file in `load` (src/config.cpp:34-46) is left out. `Load` takes the lines `std::getline` returned, or `None` when the file could not be opened. `JoinLinesSplit` states how the lines relate to the text.
- `Config.Config.Load` requires that the parse of the joined lines is defined. On input that makes `parse` read past its end the C++ behaviour is undefined and is not modelled.
- `ConfigParse.Parse` requires a defined parse for the same reason. The undefined cases are:
  - reads past the end: the name loop (src/config.cpp:163) stops at the terminating `'\0'`, and the newline loop (168) then reads past it; the section-end test (174) and the chunk loop (179) can also read past it;
  - an empty chunk, which would be read at `line.end() - 1`;
  - a chunk with fewer than two `=`-separated tokens (`tokens[1]`).
- `Numeric.StoI` does not model a locale other than "C". Its out-of-range case follows `strtol` with a 32-bit `int`.
- The floating-point kernels are fields of `Physics`, not formulas. These are `calc_gravitation`, `calc_acceleration`, the `atan2` value, `calc_angle_to_vec` (src/game_object.cpp:94-153) and the position advance of each object type. `CalcGravitation` and `CalcAcceleration` therefore carry no contract.
- `calc_orbital_velocity`, `calc_distance` and `calc_magnitude` (src/game_object.cpp:79-120) are left out. They take square roots of squared lengths and masses in single precision, and nothing in the core calls them.
- Text encodings are not modelled: every `char` is one byte of the C++ string, so multi-byte UTF-8 characters must be given byte by byte.
- Single-precision rounding, NaN and infinities are not modelled. With NaN, `compare` would not be reflexive.
- `World.World.Update` requires every entry to be non-null and no object to appear twice. The C++ dereferences every entry and would update a duplicated object twice, which is not modelled. Its contract does not mention names; `UpdateAt` states that the updated object keeps its name.
- `World.World.Destroy` models `delete` as running the destructor's counter decrement. Freeing memory is not modelled. The same non-null object held twice, which would be a double delete, is excluded by a precondition; any number of null entries is allowed.
- `GameObject.GameObject.constructor` leaves the mass unconstrained. The base class does not initialise it.
- Drawing is left out: `World::draw` (src/world.cpp:93-99), the `CelestialBody` shape, colour, volume and mass (src/celestial_body.cpp), src/game.cpp and the button of src/solui.cpp. These are rendering, input and a library clock.

=== FILE: config.dfy ===
/**
 * The `Config` object: it loads a file into sections with `Config::parse`
 * and answers `get_value` lookups from them. Opening and reading the file
 * is outside the model; `Load` takes the lines `std::getline` read, or
 * `None` when the file could not be opened.
 */
module Config {
  import opened Options
  import opened Numeric
  import opened ConfigTypes
  import opened ConfigText
  import opened ConfigParse

  /** The text `load` hands to `parse`: every line followed by '\n'. */
  function JoinLines(lines: seq<string>): string
  {
    if lines == [] then [] else lines[0] + "\n" + JoinLines(lines[1..])
  }

  /** Appending one more line appends it and its '\n' to the text. */
  lemma {:induction false} JoinLinesAppend(lines: seq<string>, line: string)
    ensures JoinLines(lines + [line]) == JoinLines(lines) + line + "\n"
  {
    if lines != [] {
      assert (lines + [line])[1..] == lines[1..] + [line];
      JoinLinesAppend(lines[1..], line);
    }
  }

  /**
   * Splitting the joined text at '\n' gives the lines back: the text
   * `parse` sees holds exactly the lines of the file, in order.
   */
  lemma {:induction false} JoinLinesSplit(lines: seq<string>)
    requires forall k :: 0 <= k < |lines| ==> '\n' !in lines[k]
    ensures Split(JoinLines(lines), '\n') == lines
  {
    if lines != [] {
      JoinLinesSplit(lines[1..]);
      SplitCons(lines[0], '\n', JoinLines(lines[1..]));
    }
  }

  /** Index of the last section called `sname`: the one `get_value` reads. */
  function LastSection(ss: seq<Section>, sname: string): (r: Option<nat>)
    ensures r.Some? ==> r.value < |ss| && ss[r.value].name == sname
    ensures r.Some? ==> forall j :: r.value < j < |ss| ==> ss[j].name != sname
    ensures r.None? ==> forall j :: 0 <= j < |ss| ==> ss[j].name != sname
  {
    if ss == [] then None
    else if ss[|ss| - 1].name == sname then Some(|ss| - 1)
    else LastSection(ss[..|ss| - 1], sname)
  }

  /** Index of the first variable called `vname`. */
  function FirstVar(vs: seq<Var>, vname: string): (r: Option<nat>)
    ensures r.Some? ==> r.value < |vs| && vs[r.value].name == vname
    ensures r.Some? ==> forall k :: 0 <= k < r.value ==> vs[k].name != vname
    ensures r.None? ==> forall k :: 0 <= k < |vs| ==> vs[k].name != vname
  {
    if vs == [] then None
    else if vs[0].name == vname then Some(0)
    else match FirstVar(vs[1..], vname)
      case None => None
      case Some(k) => Some(k + 1)
  }

  /** `get_value<std::string>`: the value, or "null" when the section or the variable is missing. */
  function Lookup(ss: seq<Section>, sname: string, vname: string): string
  {
    match LastSection(ss, sname)
    case None => "null"
    case Some(j) =>
      match FirstVar(ss[j].vars, vname)
      case None => "null"
      case Some(k) => ss[j].vars[k].value
  }

  /** With `j` the last section named `sname` and `k` its first variable named `vname`, the lookup yields that value. */
  lemma LookupHit(ss: seq<Section>, sname: string, vname: string, j: nat, k: nat)
    requires j < |ss| && ss[j].name == sname && forall j' :: j < j' < |ss| ==> ss[j'].name != sname
    requires k < |ss[j].vars| && ss[j].vars[k].name == vname
    requires forall k' :: 0 <= k' < k ==> ss[j].vars[k'].name != vname
    ensures Lookup(ss, sname, vname) == ss[j].vars[k].value
  {
    var r := LastSection(ss, sname);
    assert r == Some(j);
    var q := FirstVar(ss[j].vars, vname);
    assert q == Some(k);
  }

  /** No section named `sname`: "null". */
  lemma LookupNoSection(ss: seq<Section>, sname: string, vname: string)
    requires forall j :: 0 <= j < |ss| ==> ss[j].name != sname
    ensures Lookup(ss, sname, vname) == "null"
  {
    assert LastSection(ss, sname).None?;
  }

  /**
   * The last section named `sname` has no variable `vname`: "null", even
   * when an earlier section of the same name has one.
   */
  lemma LookupNoVar(ss: seq<Section>, sname: string, vname: string, j: nat)
    requires j < |ss| && ss[j].name == sname && forall j' :: j < j' < |ss| ==> ss[j'].name != sname
    requires forall k :: 0 <= k < |ss[j].vars| ==> ss[j].vars[k].name != vname
    ensures Lookup(ss, sname, vname) == "null"
  {
    assert LastSection(ss, sname) == Some(j);
    assert FirstVar(ss[j].vars, vname).None?;
  }

  /** `(unsigned int)std::stoi(text)`, and 0 when `stoi` throws. */
  function ToUnsigned(text: string): (r: nat)
    ensures r < UINT_MODULUS
    ensures StoI(text).None? ==> r == 0
    ensures StoI(text).Some? && StoI(text).value >= 0 ==> r == StoI(text).value
    ensures StoI(text).Some? && StoI(text).value < 0 ==> r == StoI(text).value + UINT_MODULUS
  {
    match StoI(text)
    case None => 0
    case Some(n) => n % UINT_MODULUS
  }

  /** `(bool)std::stoi(text)`, and false when `stoi` throws. */
  function ToBool(text: string): (r: bool)
    ensures r ==> StoI(text).Some?
  {
    match StoI(text)
    case None => false
    case Some(n) => n != 0
  }

  /** A value written as a decimal numeral that fits an `int` reads back as itself. */
  lemma UnsignedOfDecimal(n: nat)
    requires n <= INT_MAX
    ensures ToUnsigned(Decimal(n)) == n
  {
    StoIOfDecimal(n, []);
    assert Decimal(n) + [] == Decimal(n);
  }

  /** The boolean reading is true exactly when the unsigned reading is non-zero. */
  lemma BoolIsUnsignedNonZero(text: string)
    ensures ToBool(text) <==> ToUnsigned(text) != 0
  {
    match StoI(text)
    case None =>
    case Some(n) =>
      if n < 0 {
        assert n % UINT_MODULUS == n + UINT_MODULUS;
      }
  }

  /** The boolean reading is true exactly when `stoi` succeeds with a non-zero integer. */
  lemma ToBoolNonZero(text: string)
    ensures ToBool(text) <==> StoI(text).Some? && StoI(text).value != 0
  {
    BoolIsUnsignedNonZero(text);
  }

  /** The "null" placeholder of a missing variable reads as 0 and as false. */
  lemma NullReadsAsZero()
    ensures ToUnsigned("null") == 0 && !ToBool("null")
  {
    assert !IsSpace('n') && !IsDigit('n');
    assert SkipSpace("null", 0) == 0;
    assert DigitsEnd("null", 0) == 0;
  }

  /** A negative number wraps around: "-1" reads as 2^32 - 1. */
  lemma MinusOneWraps()
    ensures ToUnsigned("-1") == UINT_MODULUS - 1
  {
    assert !IsSpace('-') && IsDigit('1');
    assert SkipSpace("-1", 0) == 0;
    assert DigitsEnd("-1", 2) == 2;
    assert DigitsEnd("-1", 1) == 2;
    assert "-1"[1..2] == "1";
    assert DigitsValue("1") == 1 by {
      assert "1"[..0] == [];
    }
  }

  /**
   * The types `get_value` can be asked for: the `std::string`, `unsigned int`
   * and `bool` specialisations, and any type other than those and `float`
   * (whose specialisation is not part of this model).
   */
  datatype Requested = AsString | AsUnsigned | AsBool | AsOther

  /** What `get_value` hands back: a value of the requested type, or the thrown message. */
  datatype Value = Text(text: string) | Unsigned(u: nat) | Flag(b: bool) | Thrown(message: string)

  /** The message the generic `get_value` throws. */
  function UnknownType(sname: string, vname: string): string
  {
    "Unknown type!" + sname + ", " + vname
  }

  /** The message names the section and the variable after a fixed prefix. */
  lemma UnknownTypeNames(sname: string, vname: string)
    ensures |UnknownType(sname, vname)| == 13 + |sname| + 2 + |vname|
    ensures UnknownType(sname, vname)[..13] == "Unknown type!"
    ensures UnknownType(sname, vname)[13..13 + |sname|] == sname
    ensures UnknownType(sname, vname)[13 + |sname|..13 + |sname| + 2] == ", "
    ensures UnknownType(sname, vname)[13 + |sname| + 2..] == vname
  {
  }

  /** The loaded configuration: the sections of the last successful load. */
  class Config {
    var sections: seq<Section>

    constructor ()
      ensures sections == []
    {
      sections := [];
    }

    /**
     * `Config::load`: `None` is a file that could not be opened, and leaves
     * the sections as they were. Otherwise every line is appended with a
     * '\n', the text is parsed, and the load succeeds when at least one
     * section came out.
     */
    method Load(file: Option<seq<string>>) returns (ok: bool)
      requires file.Some? ==> ParseData(JoinLines(file.value)).Some?
      modifies this
      ensures file.None? ==> !ok && sections == old(sections)
      ensures file.Some? ==> Some(sections) == ParseData(JoinLines(file.value))
      ensures file.Some? ==> (ok <==> sections != [])
    {
      if file.None? {
        return false;
      }
      var lines := file.value;
      var data: string := [];
      for k := 0 to |lines|
        invariant data == JoinLines(lines[..k])
      {
        JoinLinesAppend(lines[..k], lines[k]);
        assert lines[..k + 1] == lines[..k] + [lines[k]];
        data := data + lines[k] + "\n";
      }
      assert lines[..|lines|] == lines;
      sections := Parse(data);
      ok := |sections| != 0;
    }

    /**
     * `get_value<std::string>`: remember the last section with the name,
     * then return the value of its first variable with the name.
     */
    method GetString(sname: string, vname: string) returns (value: string)
      ensures value == Lookup(sections, sname, vname)
    {
      var found := false;
      var sec := Section([], []);
      for j := 0 to |sections|
        invariant found <==> LastSection(sections[..j], sname).Some?
        invariant found ==> sec == sections[LastSection(sections[..j], sname).value]
      {
        assert sections[..j + 1][..j] == sections[..j];
        if sections[j].name == sname {
          found := true;
          sec := sections[j];
        }
      }
      assert sections[..|sections|] == sections;
      if !found {
        return "null";
      }
      for k := 0 to |sec.vars|
        invariant forall k' :: 0 <= k' < k ==> sec.vars[k'].name != vname
      {
        if sec.vars[k].name == vname {
          assert FirstVar(sec.vars, vname) == Some(k);
          return sec.vars[k].value;
        }
      }
      return "null";
    }

    /** `get_value<unsigned int>`. */
    method GetUnsigned(sname: string, vname: string) returns (u: nat)
      ensures u == ToUnsigned(Lookup(sections, sname, vname))
    {
      var text := GetString(sname, vname);
      u := ToUnsigned(text);
    }

    /** `get_value<bool>`. */
    method GetBool(sname: string, vname: string) returns (b: bool)
      ensures b == ToBool(Lookup(sections, sname, vname))
    {
      var text := GetString(sname, vname);
      b := ToBool(text);
    }

    /** `get_value<T>`: three of the four specialisations, and the generic body that throws for any other type. */
    method GetValue(t: Requested, sname: string, vname: string) returns (r: Value)
      ensures t == AsString ==> r == Text(Lookup(sections, sname, vname))
      ensures t == AsUnsigned ==> r == Unsigned(ToUnsigned(Lookup(sections, sname, vname)))
      ensures t == AsBool ==> r == Flag(ToBool(Lookup(sections, sname, vname)))
      ensures t == AsOther ==> r == Thrown(UnknownType(sname, vname))
    {
      match t
      case AsString =>
        var s := GetString(sname, vname);
        r := Text(s);
      case AsUnsigned =>
        var u := GetUnsigned(sname, vname);
        r := Unsigned(u);
      case AsBool =>
        var b := GetBool(sname, vname);
        r := Flag(b);
      case AsOther =>
        r := Thrown(UnknownType(sname, vname));
    }
  }
}

=== FILE: config_parse.dfy ===
/**
 * `Config::parse`: the index-driven scan of the joined file text into
 * sections. `SectionsFrom` and `VarsFrom` say what the scan computes from a
 * given index; `Parse` is the scan itself, proved to compute `ParseData`.
 *
 * The scan reads `data[i]` without always checking `i` first. Reading
 * `data[|data|]` yields the terminating '\0' of the `std::string`; any read
 * past that, `*(line.end() - 1)` on an empty line and `tokens[1]` with fewer
 * than two tokens are undefined behaviour. The reference definitions return
 * `Undefined` for those inputs and `Parse` requires that none occurs.
 */
module ConfigParse {
  import opened Options
  import opened ConfigTypes
  import opened ConfigText

  /** What the scan from some index produces. */
  datatype Outcome = Parsed(sections: seq<Section>) | Rejected | Undefined

  /** What the variable loop of one section produces: its variables and the index it stopped at. */
  datatype VarsOutcome = Vars(vars: seq<Var>, stop: nat) | VarsRejected | VarsUndefined

  /** `data[j]` for `j <= |data|`: the character at `|data|` is the terminating '\0'. */
  function At(data: string, j: nat): char
  {
    if j < |data| then data[j] else 0 as char
  }

  /** The section-end test: one of the current, next and next-but-one characters is '-'. */
  predicate SectionEnds(data: string, i: nat)
  {
    At(data, i) == '-' || At(data, i + 1) == '-' || At(data, i + 2) == '-'
  }

  /** A variable from the text of one chunk: strip blanks, split at '=', keep the first two tokens. */
  function MakeVar(text: string): Option<Var>
  {
    var tokens := Split(Strip(text), '=');
    if |tokens| < 2 then None else Some(Var(tokens[0], tokens[1]))
  }

  function PrependVar(v: Var, o: VarsOutcome): VarsOutcome
  {
    if o.Vars? then Vars([v] + o.vars, o.stop) else o
  }

  function PrependSection(s: Section, o: Outcome): Outcome
  {
    if o.Parsed? then Parsed([s] + o.sections) else o
  }

  /** The variable loop of a section, entered at index `i`. */
  function VarsFrom(data: string, i: nat): (r: VarsOutcome)
    requires i <= |data|
    ensures r.Vars? ==> i <= r.stop < |data|
    decreases |data| - i
  {
    if i == |data| then VarsUndefined                // data[i] is '\0', so data[i + 1] is read
    else if data[i] == '-' then Vars([], i)
    else if i + 1 == |data| then VarsUndefined       // data[i + 1] is '\0', so data[i + 2] is read
    else if SectionEnds(data, i) then Vars([], i)
    else
      var k := Find(data, ';', i);
      if k == |data| || k == i then VarsUndefined    // no ';' ahead, or an empty chunk
      else
        var line := data[i + 1..k + 1];
        if line[|line| - 1] != ';' then VarsRejected
        else match MakeVar(line[..|line| - 1])
          case None => VarsUndefined
          case Some(v) => PrependVar(v, VarsFrom(data, k + 1))
  }

  /** The outer loop of the scan from index `i`. */
  function SectionsFrom(data: string, i: nat): Outcome
    requires i <= |data|
    decreases |data| - i
  {
    if i == |data| then Parsed([])
    else if data[i] != '[' then SectionsFrom(data, i + 1)
    else
      var e := Find(data, ']', i + 1);
      if e == |data| then Undefined                  // the name runs to '\0', then data is read past it
      else
        var nl := Find(data, '\n', e);
        if nl == |data| then Undefined
        else match VarsFrom(data, nl)
          case VarsUndefined => Undefined
          case VarsRejected => Rejected
          case Vars(vs, stop) => PrependSection(Section(data[i + 1..e], vs), SectionsFrom(data, stop + 1))
  }

  /** The result of `parse(data)`, or `None` when the scan has undefined behaviour. */
  function ParseData(data: string): Option<seq<Section>>
  {
    match SectionsFrom(data, 0)
    case Parsed(ss) => Some(ss)
    case Rejected => Some([])
    case Undefined => None
  }

  /** One round of the variable loop: the chunk up to the next ';' makes the first variable. */
  lemma VarsStep(data: string, i: nat)
    requires i <= |data|
    requires VarsFrom(data, i).Vars? && VarsFrom(data, i).vars != []
    ensures i + 1 < |data| && !SectionEnds(data, i)
    ensures var k := Find(data, ';', i);
      i < k < |data| && data[k] == ';' && ';' !in data[i..k] && MakeVar(data[i + 1..k]).Some? && VarsFrom(data, k + 1).Vars? &&
      VarsFrom(data, i) ==
        Vars([MakeVar(data[i + 1..k]).value] + VarsFrom(data, k + 1).vars, VarsFrom(data, k + 1).stop)
  {
    var k := Find(data, ';', i);
    FindSlice(data, ';', i);
    assert data[i + 1..k + 1][..k - i - 1] == data[i + 1..k];
  }

  /** One round of the outer loop at a '[': the section and the scan after its end marker. */
  lemma SectionStep(data: string, i: nat)
    requires i < |data| && data[i] == '['
    requires SectionsFrom(data, i).Parsed?
    ensures var e := Find(data, ']', i + 1);
      (e < |data| && data[e] == ']' && ']' !in data[i + 1..e] &&
       var nl := Find(data, '\n', e);
       (nl < |data| &&
        var r := VarsFrom(data, nl);
        (r.Vars? &&
         SectionsFrom(data, r.stop + 1).Parsed? &&
         SectionsFrom(data, i).sections ==
           [Section(data[i + 1..e], r.vars)] + SectionsFrom(data, r.stop + 1).sections)))
  {
    FindSlice(data, ']', i + 1);
  }

  /**
   * The ends-with-';' check never fires: the chunk always ends with the ';'
   * that stopped the read loop.
   */
  lemma {:induction false} VarsNeverRejected(data: string, i: nat)
    requires i <= |data|
    ensures VarsFrom(data, i) != VarsRejected
    decreases |data| - i
  {
    if i + 1 < |data| && !SectionEnds(data, i) {
      var k := Find(data, ';', i);
      if k < |data| && k != i {
        VarsNeverRejected(data, k + 1);
      }
    }
  }

  /** Hence `parse` never takes its return-nothing exit. */
  lemma {:induction false} NeverRejected(data: string, i: nat)
    requires i <= |data|
    ensures SectionsFrom(data, i) != Rejected
    decreases |data| - i
  {
    if i < |data| {
      if data[i] != '[' {
        NeverRejected(data, i + 1);
      } else {
        var e := Find(data, ']', i + 1);
        if e < |data| {
          var nl := Find(data, '\n', e);
          if nl < |data| {
            VarsNeverRejected(data, nl);
            var r := VarsFrom(data, nl);
            if r.Vars? {
              NeverRejected(data, r.stop + 1);
            }
          }
        }
      }
    }
  }

  /**
   * A stored variable's name is the stripped text before the first '=', its
   * value the text between the first and the second '='; both are clean.
   */
  lemma MakeVarFields(text: string)
    requires MakeVar(text).Some?
    ensures var t := Strip(text); var e := Find(t, '=', 0);
      e < |t| &&
      MakeVar(text).value.name == t[..e] &&
      MakeVar(text).value.value == t[e + 1..Find(t, '=', e + 1)]
    ensures Clean(MakeVar(text).value.name) && Clean(MakeVar(text).value.value)
  {
    var t := Strip(text);
    StripChars(text);
    SplitFirstTwo(t, '=');
    SplitTokens(t, '=', 0);
    var v := MakeVar(text).value;
    assert v.name == Split(t, '=')[0] && v.value == Split(t, '=')[1];
  }

  /**
   * Chunk `j` of a section: it is read from `cs[j]`, which does not pass the
   * section-end test, up to the first ';' at or after it, at `cs[j + 1] - 1`,
   * and the text strictly between the two makes variable `vs[j]`.
   */
  ghost predicate ChunkAt(data: string, vs: seq<Var>, cs: seq<nat>, j: nat)
    requires j < |vs| && |cs| == |vs| + 1
  {
    cs[j] + 1 < cs[j + 1] <= |data| &&
    data[cs[j + 1] - 1] == ';' && ';' !in data[cs[j]..cs[j + 1] - 1] &&
    !SectionEnds(data, cs[j]) &&
    MakeVar(data[cs[j] + 1..cs[j + 1] - 1]) == Some(vs[j])
  }

  ghost predicate ChunksAt(data: string, vs: seq<Var>, cs: seq<nat>)
  {
    |cs| == |vs| + 1 && forall j: nat :: j < |vs| ==> ChunkAt(data, vs, cs, j)
  }

  /** The chunks of a variable loop entered at `i` that stopped at `stop`, where the end test passes. */
  ghost predicate ChunksFrom(data: string, i: nat, stop: nat, vs: seq<Var>, cs: seq<nat>)
  {
    ChunksAt(data, vs, cs) && cs[0] == i && cs[|cs| - 1] == stop && SectionEnds(data, stop)
  }

  /**
   * The variables of a section are the chunks met from `i` on, in order:
   * each chunk runs up to the next ';', the next chunk starts just after
   * that ';', no chunk start passes the section-end test, and the loop
   * stops at the first start that does.
   */
  lemma {:induction false} VarsInOrder(data: string, i: nat)
    requires i <= |data|
    requires VarsFrom(data, i).Vars?
    ensures exists cs :: ChunksFrom(data, i, VarsFrom(data, i).stop, VarsFrom(data, i).vars, cs)
    decreases |data| - i
  {
    if VarsFrom(data, i).vars == [] {
      VarsNone(data, i);
    } else {
      var next := Find(data, ';', i) + 1;
      VarsNext(data, i);
      VarsInOrder(data, next);
      VarsOrderStep(data, i, next);
    }
  }

  /** A variable loop that read nothing stopped where it was entered, at a section end. */
  lemma VarsNone(data: string, i: nat)
    requires i <= |data|
    requires VarsFrom(data, i).Vars? && VarsFrom(data, i).vars == []
    ensures ChunksFrom(data, i, VarsFrom(data, i).stop, VarsFrom(data, i).vars, [i])
  {
  }

  /** A variable loop that read a chunk goes on just after the chunk's ';'. */
  lemma VarsNext(data: string, i: nat)
    requires i <= |data|
    requires VarsFrom(data, i).Vars? && VarsFrom(data, i).vars != []
    ensures Find(data, ';', i) < |data| && VarsFrom(data, Find(data, ';', i) + 1).Vars?
  {
    VarsStep(data, i);
  }

  /** The inductive step of `VarsInOrder`: the first chunk in front of the chunks after it. */
  lemma VarsOrderStep(data: string, i: nat, next: nat)
    requires i <= |data|
    requires VarsFrom(data, i).Vars? && VarsFrom(data, i).vars != []
    requires next == Find(data, ';', i) + 1 <= |data|
    requires VarsFrom(data, next).Vars?
    requires exists cs :: ChunksFrom(data, next, VarsFrom(data, next).stop, VarsFrom(data, next).vars, cs)
    ensures exists cs :: ChunksFrom(data, i, VarsFrom(data, i).stop, VarsFrom(data, i).vars, cs)
  {
    VarsStep(data, i);
    var k := next - 1;
    var v := MakeVar(data[i + 1..k]).value;
    FirstChunk(data, i, k, next, v, VarsFrom(data, next), VarsFrom(data, i));
  }

  /** `VarsOrderStep` over the two outcomes as plain values. */
  lemma FirstChunk(data: string, i: nat, k: nat, next: nat, v: Var, rest: VarsOutcome, r: VarsOutcome)
    requires i < k < |data| && next == k + 1 && data[k] == ';' && ';' !in data[i..k]
    requires !SectionEnds(data, i) && MakeVar(data[i + 1..k]) == Some(v)
    requires rest.Vars? && r == Vars([v] + rest.vars, rest.stop)
    requires exists cs :: ChunksFrom(data, next, rest.stop, rest.vars, cs)
    ensures exists cs :: ChunksFrom(data, i, r.stop, r.vars, cs)
  {
    var cs :| ChunksFrom(data, next, rest.stop, rest.vars, cs);
    ConsChunk(data, i, k, r.stop, v, rest.vars, r.vars, cs);
  }

  /** Section `j` was opened by the '[' at `ps[j]` and is named by the text up to the next ']'. */
  ghost predicate HeaderAt(data: string, ss: seq<Section>, ps: seq<nat>, j: nat)
    requires j < |ps| == |ss|
  {
    ps[j] + |ss[j].name| + 1 < |data| && data[ps[j]] == '[' &&
    data[ps[j] + 1..ps[j] + |ss[j].name| + 1] == ss[j].name &&
    data[ps[j] + |ss[j].name| + 1] == ']' && ']' !in ss[j].name
  }

  /** Header positions of the parsed sections, increasing and all at or after `i`. */
  ghost predicate HeadersAt(data: string, i: nat, ss: seq<Section>, ps: seq<nat>)
  {
    |ps| == |ss| &&
    (forall j: nat :: j < |ps| ==> i <= ps[j] && HeaderAt(data, ss, ps, j)) &&
    (forall j: nat :: j + 1 < |ps| ==> ps[j] < ps[j + 1])
  }

  /**
   * Sections come out in the order of their '[' headers, and each one is
   * named by the text between its '[' and the first ']' after it.
   */
  lemma {:induction false} SectionsInOrder(data: string, i: nat)
    requires i <= |data|
    requires SectionsFrom(data, i).Parsed?
    ensures exists ps :: HeadersAt(data, i, SectionsFrom(data, i).sections, ps)
    decreases |data| - i
  {
    if i == |data| {
      assert HeadersAt(data, i, [], []);
    } else if data[i] != '[' {
      SectionsInOrder(data, i + 1);
      var ps :| HeadersAt(data, i + 1, SectionsFrom(data, i + 1).sections, ps);
      HeadersFrom(data, i, i + 1, SectionsFrom(data, i + 1).sections, ps);
    } else {
      SectionStep(data, i);
      var e := Find(data, ']', i + 1);
      var nl := Find(data, '\n', e);
      var r := VarsFrom(data, nl);
      var rest := SectionsFrom(data, r.stop + 1);
      var ss := SectionsFrom(data, i).sections;
      SectionsInOrder(data, r.stop + 1);
      var ps' :| HeadersAt(data, r.stop + 1, rest.sections, ps');
      HeadersFrom(data, i + 1, r.stop + 1, rest.sections, ps');
      ConsHeader(data, i, Section(data[i + 1..e], r.vars), rest.sections, ps');
      assert HeadersAt(data, i, ss, [i] + ps');
    }
  }

  /** A chunk in front of the chunks that follow it. */
  lemma ConsChunk(data: string, i: nat, k: nat, stop: nat, v: Var, vs: seq<Var>, vs': seq<Var>, cs: seq<nat>)
    requires i < k < |data| && data[k] == ';' && ';' !in data[i..k]
    requires !SectionEnds(data, i) && MakeVar(data[i + 1..k]) == Some(v)
    requires ChunksFrom(data, k + 1, stop, vs, cs)
    requires vs' == [v] + vs
    ensures ChunksFrom(data, i, stop, vs', [i] + cs)
  {
    var cs' := [i] + cs;
    forall j: nat | j < |vs'|
      ensures ChunkAt(data, vs', cs', j)
    {
      if j > 0 {
        assert ChunkAt(data, vs, cs, j - 1);
        assert cs'[j] == cs[j - 1] && cs'[j + 1] == cs[j] && vs'[j] == vs[j - 1];
      }
    }
    assert cs'[|cs'| - 1] == cs[|cs| - 1];
  }

  /** A section opened at `i` in front of the sections opened after it. */
  lemma ConsHeader(data: string, i: nat, s: Section, ss: seq<Section>, ps: seq<nat>)
    requires i + |s.name| + 1 < |data| && data[i] == '['
    requires data[i + 1..i + |s.name| + 1] == s.name && data[i + |s.name| + 1] == ']' && ']' !in s.name
    requires HeadersAt(data, i + 1, ss, ps)
    ensures HeadersAt(data, i, [s] + ss, [i] + ps)
  {
    var ss', ps' := [s] + ss, [i] + ps;
    forall j: nat | j < |ps'|
      ensures i <= ps'[j] && HeaderAt(data, ss', ps', j)
    {
      if j > 0 {
        assert HeaderAt(data, ss, ps, j - 1);
        assert ps'[j] == ps[j - 1] && ss'[j] == ss[j - 1];
      }
    }
  }

  /** Headers at or after `k` are at or after any `i <= k`. */
  lemma HeadersFrom(data: string, i: nat, k: nat, ss: seq<Section>, ps: seq<nat>)
    requires i <= k && HeadersAt(data, k, ss, ps)
    ensures HeadersAt(data, i, ss, ps)
  {
  }

  /** Every name and value stored by the scan is clean. */
  lemma {:induction false} VarsClean(data: string, i: nat)
    requires i <= |data|
    requires VarsFrom(data, i).Vars?
    ensures forall v :: v in VarsFrom(data, i).vars ==> Clean(v.name) && Clean(v.value)
    decreases |data| - i
  {
    var r := VarsFrom(data, i);
    if r.vars != [] {
      VarsStep(data, i);
      var k := Find(data, ';', i);
      MakeVarFields(data[i + 1..k]);
      VarsClean(data, k + 1);
    }
  }

  lemma {:induction false} SectionsClean(data: string, i: nat)
    requires i <= |data|
    requires SectionsFrom(data, i).Parsed?
    ensures forall s, v :: s in SectionsFrom(data, i).sections && v in s.vars ==>
      Clean(v.name) && Clean(v.value)
    decreases |data| - i
  {
    if i < |data| {
      if data[i] != '[' {
        SectionsClean(data, i + 1);
      } else {
        SectionStep(data, i);
        var nl := Find(data, '\n', Find(data, ']', i + 1));
        var r := VarsFrom(data, nl);
        VarsClean(data, nl);
        SectionsClean(data, r.stop + 1);
      }
    }
  }

  /** A section whose only variable line starts with "v-": the '-' two characters on ends the section. */
  const GraphicsText: string := "[graphics]\nv-sync=1;\n"

  /** The variable line "v-sync=1;" is never read: the section ends at the newline before it. */
  lemma HyphenAfterHeader()
    ensures ParseData(GraphicsText) == Some([Section("graphics", [])])
  {
    assert GraphicsText[0] == '[' && |GraphicsText| == 21;
    assert GraphicsText[1..9] == "graphics";
    GraphicsHeader();
    GraphicsEnds();
    NoHeader(GraphicsText, 11);
    assert SectionsFrom(GraphicsText, 0) == Parsed([Section("graphics", [])]);
  }

  lemma GraphicsHeader()
    ensures Find(GraphicsText, ']', 1) == 9 && Find(GraphicsText, '\n', 9) == 10
  {
    FindIs(GraphicsText, ']', 1, 9);
    FindIs(GraphicsText, '\n', 9, 10);
  }

  lemma GraphicsEnds()
    ensures VarsFrom(GraphicsText, 10) == Vars([], 10)
  {
    assert GraphicsText[10] == '\n' && GraphicsText[12] == '-';
  }

  /** A well-formed section: one variable with blanks around '=', then the end marker. */
  const WindowText: string := "[w]\nx = 1;\n-"

  /** Blanks are dropped from the variable and the '-' on the next line ends the section. */
  lemma OneVariable()
    ensures ParseData(WindowText) == Some([Section("w", [Var("x", "1")])])
  {
    assert WindowText[0] == '[' && |WindowText| == 12 && WindowText[1..2] == "w";
    WindowHeader();
    WindowVars();
    assert SectionsFrom(WindowText, 11) == Parsed([]) by {
      assert WindowText[11] == '-';
    }
    assert SectionsFrom(WindowText, 0) == Parsed([Section("w", [Var("x", "1")])]);
  }

  lemma WindowHeader()
    ensures Find(WindowText, ']', 1) == 2 && Find(WindowText, '\n', 2) == 3
  {
    FindIs(WindowText, ']', 1, 2);
    FindIs(WindowText, '\n', 2, 3);
  }

  lemma WindowVars()
    ensures VarsFrom(WindowText, 3) == Vars([Var("x", "1")], 10)
  {
    assert WindowText[3] == '\n' && WindowText[4] == 'x' && WindowText[5] == ' ';
    assert WindowText[10] == '\n' && WindowText[11] == '-';
    FindIs(WindowText, ';', 3, 9);
    WindowVar();
    VarsEnd(WindowText, 10);
    VarsChunk(WindowText, 3, 9, Var("x", "1"));
  }

  lemma WindowVar()
    ensures MakeVar(WindowText[4..9]) == Some(Var("x", "1"))
  {
    assert WindowText[4..9] == "x = 1";
    WindowStrip();
    WindowSplit();
  }

  lemma WindowStrip()
    ensures Strip("x = 1") == "x=1"
  {
    assert Without("x = 1", ' ') == "x=1" by {
      assert "x = 1" == ['x'] + " = 1" && " = 1" == [' '] + "= 1" && "= 1" == ['='] + " 1";
      assert " 1" == [' '] + "1" && "1" == ['1'] + [];
    }
    WithoutAbsent("x=1", '\t');
    WithoutAbsent("x=1", '\r');
  }

  lemma WindowSplit()
    ensures Split("x=1", '=') == ["x", "1"]
  {
    SplitCons("x", '=', "1");
    assert "x=1" == "x" + ['='] + "1";
    assert Split("1", '=') == ["1"];
  }

  /** The variable loop stops where the end test passes. */
  lemma VarsEnd(data: string, i: nat)
    requires i < |data| && (data[i] == '-' || i + 1 < |data|) && SectionEnds(data, i)
    ensures VarsFrom(data, i) == Vars([], i)
  {
  }

  /** A chunk that makes a variable puts it in front of the variables read after it. */
  lemma VarsChunk(data: string, i: nat, k: nat, v: Var)
    requires i + 1 < |data| && !SectionEnds(data, i)
    requires i < k < |data| && Find(data, ';', i) == k
    requires MakeVar(data[i + 1..k]) == Some(v)
    ensures VarsFrom(data, i) == PrependVar(v, VarsFrom(data, k + 1))
  {
    assert data[i + 1..k + 1][..k - i - 1] == data[i + 1..k];
  }

  /** Text with no '[' from `i` on yields no section. */
  lemma {:induction false} NoHeader(data: string, i: nat)
    requires i <= |data|
    requires forall k :: i <= k < |data| ==> data[k] != '['
    ensures SectionsFrom(data, i) == Parsed([])
    decreases |data| - i
  {
    if i < |data| {
      NoHeader(data, i + 1);
    }
  }

  /** Variables already read in front of what the rest of the loop reads. */
  function AppendVars(done: seq<Var>, o: VarsOutcome): VarsOutcome
  {
    if o.Vars? then Vars(done + o.vars, o.stop) else o
  }

  /** Sections already pushed in front of what the rest of the scan pushes. */
  function AppendSections(done: seq<Section>, o: Outcome): Outcome
  {
    if o.Parsed? then Parsed(done + o.sections) else o
  }

  lemma AppendVarsStep(done: seq<Var>, v: Var, o: VarsOutcome)
    ensures AppendVars(done + [v], o) == AppendVars(done, PrependVar(v, o))
  {
    if o.Vars? {
      assert (done + [v]) + o.vars == done + ([v] + o.vars);
    }
  }

  lemma AppendSectionsStep(done: seq<Section>, s: Section, o: Outcome)
    ensures AppendSections(done + [s], o) == AppendSections(done, PrependSection(s, o))
  {
    if o.Parsed? {
      assert (done + [s]) + o.sections == done + ([s] + o.sections);
    }
  }

  /** What a defined variable loop lets `Config::parse` read at `i`: `data[i]`, and `data[i + 1]` unless `data[i]` is '-'. */
  lemma VarsReadable(data: string, i: nat)
    requires i <= |data| && VarsFrom(data, i) != VarsUndefined
    ensures i < |data| && (data[i] == '-' || i + 1 < |data|)
  {
  }

  /**
   * One chunk of a defined variable loop whose end test fails at `i`: the
   * next ';' is ahead, the stripped text splits into at least two tokens,
   * and the variable they make comes first.
   */
  lemma ChunkRead(data: string, i: nat)
    requires i + 1 < |data| && !SectionEnds(data, i)
    requires VarsFrom(data, i) != VarsUndefined
    ensures var k := Find(data, ';', i);
      i < k < |data| && |Split(Strip(data[i + 1..k]), '=')| >= 2 &&
      VarsFrom(data, k + 1) != VarsUndefined &&
      VarsFrom(data, i) == PrependVar(MakeVar(data[i + 1..k]).value, VarsFrom(data, k + 1))
  {
    var k := Find(data, ';', i);
    assert data[i + 1..k + 1][..k - i - 1] == data[i + 1..k];
  }

  /** At a '[' of a scan with defined behaviour, the ']' and the end of its line both come before the end. */
  lemma HeaderFound(data: string, open: nat)
    requires open < |data| && data[open] == '['
    requires SectionsFrom(data, open) != Undefined
    ensures Find(data, ']', open + 1) < |data|
    ensures Find(data, '\n', Find(data, ']', open + 1)) < |data|
  {
  }

  /**
   * The round of the outer loop at a '[' whose ']' is at `e` and whose
   * line ends at `nl`: the named section, then the scan after the index
   * the variable loop stopped at.
   */
  lemma SectionSplit(data: string, open: nat, e: nat, nl: nat)
    requires open < |data| && data[open] == '['
    requires SectionsFrom(data, open) != Undefined
    requires e == Find(data, ']', open + 1) < |data|
    requires nl == Find(data, '\n', e) < |data|
    ensures VarsFrom(data, nl).Vars?
    ensures SectionsFrom(data, open) ==
      PrependSection(Section(data[open + 1..e], VarsFrom(data, nl).vars), SectionsFrom(data, VarsFrom(data, nl).stop + 1))
  {
    VarsNeverRejected(data, nl);
  }

  /**
   * One variable chunk of `Config::parse`: the read loop tests `data[i]`,
   * steps past it and appends the character it steps onto, until the tested
   * character is ';'. The chunk therefore holds the text after `data[i]` up
   * to and including the next ';'.
   */
  method ReadChunk(data: string, i: nat) returns (line: string, next: nat)
    requires i < |data| && i < Find(data, ';', i) < |data|
    ensures next == Find(data, ';', i) + 1
    ensures line == data[i + 1..next] && line[|line| - 1] == ';'
  {
    ghost var k := Find(data, ';', i);
    line := [];
    next := i;
    while data[next] != ';'
      invariant i <= next <= k
      invariant line == data[i + 1..next + 1]
      decreases k - next
    {
      next := next + 1;
      line := line + [data[next]];
    }
    next := next + 1;
  }

  /**
   * One round of the variable loop of `Config::parse`: read a chunk, drop
   * its ';', erase blanks, tabs and carriage returns, split at '=' and make
   * the variable of the first two tokens.
   */
  method ReadVar(data: string, i: nat) returns (v: Var, next: nat)
    requires i + 1 < |data| && !SectionEnds(data, i)
    requires VarsFrom(data, i) != VarsUndefined
    ensures i < next <= |data| && VarsFrom(data, next) != VarsUndefined
    ensures VarsFrom(data, i) == PrependVar(v, VarsFrom(data, next))
  {
    ChunkRead(data, i);
    var line;
    line, next := ReadChunk(data, i);
    if line[|line| - 1] != ';' {
      // never taken: `line` ends with the ';' that stopped the read loop
      assert false;
    }
    line := line[..|line| - 1];
    assert line == data[i + 1..next - 1];
    line := Without(line, ' ');
    line := Without(line, '\t');
    line := Without(line, '\r');
    var tokens := SplitStr(line, '=');
    v := Var(tokens[0], tokens[1]);
    assert MakeVar(data[i + 1..next - 1]) == Some(v);
  }

  /**
   * The variable loop of `Config::parse`, entered at the end of a header
   * line: rounds of `ReadVar` while the section-end test fails, each
   * pushing its variable onto the section's list `acc`.
   */
  method ReadVars(data: string, from: nat, acc: seq<Var>) returns (vars: seq<Var>, stop: nat)
    requires from <= |data| && VarsFrom(data, from).Vars?
    ensures vars == acc + VarsFrom(data, from).vars && stop == VarsFrom(data, from).stop
  {
    vars := acc;
    var i := from;
    VarsReadable(data, i);
    while data[i] != '-' && data[i + 1] != '-' && At(data, i + 2) != '-' && i < |data|
      invariant i < |data| && (data[i] == '-' || i + 1 < |data|)
      invariant VarsFrom(data, i) != VarsUndefined
      invariant AppendVars(vars, VarsFrom(data, i)) == AppendVars(acc, VarsFrom(data, from))
      decreases |data| - i
    {
      var v;
      v, i := ReadVar(data, i);
      AppendVarsStep(vars, v, VarsFrom(data, i));
      vars := vars + [v];
      VarsReadable(data, i);
    }
    VarsEnd(data, i);
    assert vars + [] == vars;
    stop := i;
  }

  /**
   * The name loop of `Config::parse` after a '[': the characters up to the
   * next ']' are appended to the section's name `acc`; also the index of
   * that ']'.
   */
  method ReadName(data: string, open: nat, acc: string) returns (name: string, e: nat)
    requires open < |data| && Find(data, ']', open + 1) < |data|
    ensures e == Find(data, ']', open + 1)
    ensures name == acc + data[open + 1..e]
  {
    name := acc;
    e := open + 1;
    // `Config::parse` tests data[e] first; at |data| that is the terminating '\0'
    while e < |data| && data[e] != ']'
      invariant open < e <= |data|
      invariant name == acc + data[open + 1..e]
      invariant forall k :: open + 1 <= k < e ==> data[k] != ']'
    {
      name := name + [data[e]];
      e := e + 1;
    }
    FindIs(data, ']', open + 1, e);
  }

  /** The loop of `Config::parse` that moves the index to the end of the header line. */
  method SkipLine(data: string, e: nat) returns (nl: nat)
    requires e <= |data| && Find(data, '\n', e) < |data|
    ensures nl == Find(data, '\n', e)
  {
    nl := e;
    while data[nl] != '\n'
      invariant e <= nl <= Find(data, '\n', e)
      decreases |data| - nl
    {
      nl := nl + 1;
    }
  }

  /**
   * One section of `Config::parse`, from its '[' at `open`: the name is
   * appended to the accumulator `name0` and the variables are pushed onto
   * `vars0`; `stop` is where the variable loop stopped.
   */
  method ReadSection(data: string, open: nat, name0: string, vars0: seq<Var>)
    returns (name: string, vars: seq<Var>, stop: nat)
    requires open < |data| && data[open] == '[' && SectionsFrom(data, open) != Undefined
    ensures open < stop < |data|
    ensures |name0| <= |name| && name[..|name0|] == name0
    ensures |vars0| <= |vars| && vars[..|vars0|] == vars0
    ensures SectionsFrom(data, open) ==
      PrependSection(Section(name[|name0|..], vars[|vars0|..]), SectionsFrom(data, stop + 1))
  {
    HeaderFound(data, open);
    var e, nl;
    name, e := ReadName(data, open, name0);
    nl := SkipLine(data, e);
    SectionSplit(data, open, e, nl);
    vars, stop := ReadVars(data, nl, vars0);
    assert name[|name0|..] == data[open + 1..e];
    assert vars[|vars0|..] == VarsFrom(data, nl).vars;
  }

  /**
   * `Config::parse`: one pass over `data` with a single index. At a '[' it
   * reads the name up to ']', skips to the end of the line, reads the
   * variables, and pushes the section; the section accumulators are cleared
   * after each push, and the scan resumes after the index the variable loop
   * stopped at.
   */
  method Parse(data: string) returns (sections: seq<Section>)
    requires ParseData(data).Some?
    ensures ParseData(data) == Some(sections)
  {
    sections := [];
    var name: string := [];
    var vars: seq<Var> := [];
    var i: nat := 0;
    while i < |data|
      invariant i <= |data|
      invariant AppendSections(sections, SectionsFrom(data, i)) == SectionsFrom(data, 0)
      invariant name == [] && vars == []
    {
      if data[i] == '[' {
        name, vars, i := ReadSection(data, i, name, vars);
        var section := Section(name, vars);
        assert name[0..] == name && vars[0..] == vars;
        AppendSectionsStep(sections, section, SectionsFrom(data, i + 1));
        sections := sections + [section];
        name := [];
        vars := [];
      }
      i := i + 1;
    }
    assert sections + [] == sections;
  }
}

=== FILE: config_text.dfy ===
/**
 * Character-level helpers of the config reader: searching for a character,
 * erasing every occurrence of one (`std::remove` followed by `erase`), and
 * `Config::splitstr`, which splits with `std::getline` on a delimiter.
 */
module ConfigText {

  /** Index of the first `c` at or after `from`, or `|s|` when there is none. */
  function Find(s: string, c: char, from: nat): (r: nat)
    requires from <= |s|
    ensures from <= r <= |s|
    ensures r < |s| ==> s[r] == c
    ensures forall k :: from <= k < r ==> s[k] != c
    decreases |s| - from
  {
    if from == |s| || s[from] == c then from else Find(s, c, from + 1)
  }

  /** `s.erase(std::remove(s.begin(), s.end(), c), s.end())`. */
  function Without(s: string, c: char): string
  {
    if s == [] then []
    else (if s[0] == c then [] else [s[0]]) + Without(s[1..], c)
  }

  /** The three erasures applied to a variable's text: space, tab, carriage return. */
  function Strip(s: string): string
  {
    Without(Without(Without(s, ' '), '\t'), '\r')
  }

  /** Erasing `c` keeps exactly the other characters. */
  lemma {:induction false} WithoutChars(s: string, c: char)
    ensures forall x :: x in Without(s, c) <==> x in s && x != c
  {
    if s != [] {
      WithoutChars(s[1..], c);
      assert s == [s[0]] + s[1..];
    }
  }

  /** Erasing from one character: it goes if it is `c` and stays otherwise. */
  lemma WithoutSingle(x: char, c: char)
    ensures Without([x], c) == if x == c then [] else [x]
  {
    assert [x][1..] == [];
  }

  /**
   * Erasing distributes over concatenation: `std::remove` keeps every other
   * character, in its order and as often as it occurs.
   */
  lemma {:induction false} WithoutAppend(s: string, t: string, c: char)
    ensures Without(s + t, c) == Without(s, c) + Without(t, c)
  {
    if s != [] {
      assert (s + t)[0] == s[0];
      assert (s + t)[1..] == s[1..] + t;
      WithoutAppend(s[1..], t, c);
    } else {
      assert s + t == t;
    }
  }

  /** The three erasures distribute over concatenation. */
  lemma StripAppend(s: string, t: string)
    ensures Strip(s + t) == Strip(s) + Strip(t)
  {
    WithoutAppend(s, t, ' ');
    WithoutAppend(Without(s, ' '), Without(t, ' '), '\t');
    WithoutAppend(Without(Without(s, ' '), '\t'), Without(Without(t, ' '), '\t'), '\r');
  }

  /** Erasing a character that does not occur changes nothing. */
  lemma {:induction false} WithoutAbsent(s: string, c: char)
    requires c !in s
    ensures Without(s, c) == s
  {
    if s != [] {
      WithoutAbsent(s[1..], c);
      assert s == [s[0]] + s[1..];
    }
  }

  /** A stripped text has no blank, tab or carriage return, and only characters of the original. */
  lemma StripChars(s: string)
    ensures ' ' !in Strip(s) && '\t' !in Strip(s) && '\r' !in Strip(s)
    ensures forall x :: x in Strip(s) ==> x in s
  {
    WithoutChars(s, ' ');
    WithoutChars(Without(s, ' '), '\t');
    WithoutChars(Without(Without(s, ' '), '\t'), '\r');
  }

  /** `Find` is pinned down by its contract: the first `c` at or after `from`. */
  lemma {:induction false} FindIs(s: string, c: char, from: nat, r: nat)
    requires from <= r <= |s|
    requires r < |s| ==> s[r] == c
    requires forall k :: from <= k < r ==> s[k] != c
    ensures Find(s, c, from) == r
    decreases r - from
  {
    if from < r {
      FindIs(s, c, from + 1, r);
    }
  }

  /** The text skipped by `Find` holds no `c`. */
  lemma FindSlice(s: string, c: char, from: nat)
    requires from <= |s|
    ensures c !in s[from..Find(s, c, from)]
  {
    var r := Find(s, c, from);
    forall k | 0 <= k < r - from ensures s[from..r][k] != c {
      assert s[from..r][k] == s[from + k];
    }
  }

  /**
   * Tokens `std::getline(stream, token, d)` yields from position `i` on until
   * it fails: each call takes the text up to the next `d` and discards the
   * `d`; a call at the end of the input fails, so a trailing `d` yields no
   * empty token.
   */
  function SplitFrom(s: string, d: char, i: nat): seq<string>
    requires i <= |s|
    decreases |s| - i
  {
    if i == |s| then []
    else
      var e := Find(s, d, i);
      if e == |s| then [s[i..]] else [s[i..e]] + SplitFrom(s, d, e + 1)
  }

  function Split(s: string, d: char): seq<string>
  {
    SplitFrom(s, d, 0)
  }

  /** The tokens glued back together with `d` between neighbours. */
  function Join(ts: seq<string>, d: char): string
  {
    if ts == [] then []
    else if |ts| == 1 then ts[0]
    else ts[0] + [d] + Join(ts[1..], d)
  }

  /** The one delimiter `getline` leaves no token for: a `d` that ends the text. */
  function Trailing(s: string, d: char): string
  {
    if s != [] && s[|s| - 1] == d then [d] else []
  }

  /** No token holds the delimiter, and every character of a token comes from the input. */
  lemma {:induction false} SplitTokens(s: string, d: char, i: nat)
    requires i <= |s|
    ensures forall k :: 0 <= k < |SplitFrom(s, d, i)| ==>
      d !in SplitFrom(s, d, i)[k] && forall x :: x in SplitFrom(s, d, i)[k] ==> x in s
    decreases |s| - i
  {
    if i < |s| {
      var e := Find(s, d, i);
      var t := s[i..e];
      assert d !in t by {
        forall k | 0 <= k < |t| ensures t[k] != d { assert t[k] == s[i + k]; }
      }
      assert forall x :: x in t ==> x in s by {
        forall x | x in t ensures x in s { var k :| 0 <= k < |t| && t[k] == x; assert s[i + k] == x; }
      }
      if e < |s| {
        SplitTokens(s, d, e + 1);
      }
    }
  }

  /** Zero tokens exactly when nothing is left to read. */
  lemma SplitEmptyIff(s: string, d: char, i: nat)
    requires i <= |s|
    ensures SplitFrom(s, d, i) == [] <==> i == |s|
  {
  }

  lemma JoinCons(t: string, rest: seq<string>, d: char)
    requires rest != []
    ensures Join([t] + rest, d) == t + [d] + Join(rest, d)
  {
    assert ([t] + rest)[1..] == rest;
  }

  /**
   * Joining the tokens with the delimiter gives back the text, except the
   * one trailing delimiter that `getline` swallows.
   */
  lemma {:induction false} SplitJoin(s: string, d: char, i: nat)
    requires i <= |s|
    ensures Join(SplitFrom(s, d, i), d) + Trailing(s[i..], d) == s[i..]
    decreases |s| - i
  {
    if i < |s| {
      var e := Find(s, d, i);
      if e == |s| {
        SplitJoinNone(s, d, i);
      } else if e + 1 == |s| {
        SplitJoinLast(s, d, i, e);
      } else {
        SplitJoin(s, d, e + 1);
        SplitJoinCons(s, d, i, e);
      }
    }
  }

  /** No delimiter left: one token, the rest of the text. */
  lemma SplitJoinNone(s: string, d: char, i: nat)
    requires i < |s| && Find(s, d, i) == |s|
    ensures Join(SplitFrom(s, d, i), d) + Trailing(s[i..], d) == s[i..]
  {
    assert SplitFrom(s, d, i) == [s[i..]];
    assert s[i..][|s[i..]| - 1] == s[|s| - 1];
  }

  /** The delimiter ends the text: one token, and the delimiter is the trailing one. */
  lemma SplitJoinLast(s: string, d: char, i: nat, e: nat)
    requires i <= e && e + 1 == |s| && Find(s, d, i) == e
    ensures Join(SplitFrom(s, d, i), d) + Trailing(s[i..], d) == s[i..]
  {
    assert SplitFrom(s, d, i) == [s[i..e]];
    assert s[i..] == s[i..e] + [d];
  }

  /** A token, its delimiter, then the rest of the text. */
  lemma SplitJoinCons(s: string, d: char, i: nat, e: nat)
    requires i <= e && e + 1 < |s| && Find(s, d, i) == e
    requires Join(SplitFrom(s, d, e + 1), d) + Trailing(s[e + 1..], d) == s[e + 1..]
    ensures Join(SplitFrom(s, d, i), d) + Trailing(s[i..], d) == s[i..]
  {
    var t, rest, tail := s[i..e], SplitFrom(s, d, e + 1), s[e + 1..];
    SplitFromCons(s, d, i, e);
    SplitEmptyIff(s, d, e + 1);
    SameTrailing(s, d, i, e + 1);
    SliceAround(s, i, e);
    JoinStep(t, rest, d, tail, Trailing(tail, d));
  }

  /** Two non-empty suffixes of a text end with the same character. */
  lemma SameTrailing(s: string, d: char, i: nat, j: nat)
    requires i <= j < |s|
    ensures Trailing(s[i..], d) == Trailing(s[j..], d)
  {
    assert s[i..][|s[i..]| - 1] == s[|s| - 1] == s[j..][|s[j..]| - 1];
  }

  lemma SliceAround(s: string, i: nat, e: nat)
    requires i <= e < |s|
    ensures s[i..] == s[i..e] + [s[e]] + s[e + 1..]
  {
  }

  /** The inductive step of `SplitJoin`, kept apart from the slicing facts. */
  lemma JoinStep(t: string, rest: seq<string>, d: char, tail: string, tr: string)
    requires rest != []
    requires Join(rest, d) + tr == tail
    ensures Join([t] + rest, d) + tr == t + [d] + tail
  {
    JoinCons(t, rest, d);
  }

  /**
   * The first token is the text before the first delimiter, the second the
   * text between the first and the second delimiter.
   */
  lemma SplitFirstTwo(s: string, d: char)
    requires |Split(s, d)| >= 2
    ensures Find(s, d, 0) < |s|
    ensures Split(s, d)[0] == s[..Find(s, d, 0)]
    ensures Split(s, d)[1] == s[Find(s, d, 0) + 1..Find(s, d, Find(s, d, 0) + 1)]
  {
    var e := Find(s, d, 0);
    assert e < |s|;
    assert Split(s, d) == [s[..e]] + SplitFrom(s, d, e + 1);
  }

  /** Splitting after a prefix `p` is splitting the remainder on its own. */
  lemma {:induction false} SplitShift(p: string, t: string, d: char, i: nat)
    requires i <= |t|
    ensures SplitFrom(p + t, d, |p| + i) == SplitFrom(t, d, i)
    decreases |t| - i
  {
    if i < |t| {
      var e := Find(t, d, i);
      FindShift(p, t, d, i);
      if e < |t| {
        SplitShift(p, t, d, e + 1);
        ConsShift(p, t, d, i, e);
      } else {
        LastShift(p, t, d, i);
      }
    }
  }

  /** A token of `t` ending at a delimiter is also a token of `p + t`, followed by the same tokens. */
  lemma ConsShift(p: string, t: string, d: char, i: nat, e: nat)
    requires i <= e < |t| && Find(t, d, i) == e && Find(p + t, d, |p| + i) == |p| + e
    requires SplitFrom(p + t, d, |p| + e + 1) == SplitFrom(t, d, e + 1)
    ensures SplitFrom(p + t, d, |p| + i) == SplitFrom(t, d, i)
  {
    ShiftToken(p, t, i, e);
    SplitFromCons(p + t, d, |p| + i, |p| + e);
    SplitFromCons(t, d, i, e);
  }

  /** The last token of `t` is also the last token of `p + t`. */
  lemma LastShift(p: string, t: string, d: char, i: nat)
    requires i < |t| && Find(t, d, i) == |t| && Find(p + t, d, |p| + i) == |p + t|
    ensures SplitFrom(p + t, d, |p| + i) == SplitFrom(t, d, i)
  {
    assert (p + t)[|p| + i..] == t[i..];
    SplitFromLast(p + t, d, |p| + i);
    SplitFromLast(t, d, i);
  }

  /** A token followed by a delimiter, then the tokens after it. */
  lemma SplitFromCons(s: string, d: char, i: nat, e: nat)
    requires i <= e < |s| && Find(s, d, i) == e
    ensures SplitFrom(s, d, i) == [s[i..e]] + SplitFrom(s, d, e + 1)
  {
  }

  /** The last token: no delimiter follows it. */
  lemma SplitFromLast(s: string, d: char, i: nat)
    requires i < |s| && Find(s, d, i) == |s|
    ensures SplitFrom(s, d, i) == [s[i..]] + SplitFrom(s, d, |s|)
  {
  }

  lemma ShiftToken(p: string, t: string, i: nat, e: nat)
    requires i <= e <= |t|
    ensures (p + t)[|p| + i..|p| + e] == t[i..e]
  {
  }

  lemma {:induction false} FindShift(p: string, t: string, c: char, i: nat)
    requires i <= |t|
    ensures Find(p + t, c, |p| + i) == |p| + Find(t, c, i)
    decreases |t| - i
  {
    if i < |t| && t[i] != c {
      FindShift(p, t, c, i + 1);
    }
  }

  /** A text with no delimiter, then a delimiter, splits into that text and the rest's tokens. */
  lemma SplitCons(t: string, d: char, u: string)
    requires d !in t
    ensures Split(t + [d] + u, d) == [t] + Split(u, d)
  {
    var s := t + [d] + u;
    FindIs(s, d, 0, |t|);
    assert s[..|t|] == t;
    assert s == (t + [d]) + u;
    SplitShift(t + [d], u, d, 0);
  }

  /** One `getline` call moves its token from the unread part to the result. */
  lemma GetlineStep(done: seq<string>, token: string, rest: seq<string>, unread: seq<string>, all: seq<string>)
    requires unread == [token] + rest
    requires done + unread == all
    ensures (done + [token]) + rest == all
  {
  }

  /**
   * One `std::getline` call on the stream at `i`: the characters up to the
   * next delimiter, and the position after that delimiter.
   */
  method Getline(str: string, delim: char, i: nat) returns (token: string, next: nat)
    requires i < |str|
    ensures i < next <= |str|
    ensures SplitFrom(str, delim, i) == [token] + SplitFrom(str, delim, next)
  {
    token := [];
    next := i;
    while next < |str| && str[next] != delim
      invariant i <= next <= |str|
      invariant token == str[i..next]
      invariant forall k :: i <= k < next ==> str[k] != delim
    {
      token := token + [str[next]];
      next := next + 1;
    }
    FindIs(str, delim, i, next);
    if next < |str| {
      SplitFromCons(str, delim, i, next);
      next := next + 1;
    } else {
      assert token == str[i..];
      SplitFromLast(str, delim, i);
    }
  }

  /**
   * `Config::splitstr`: reads tokens with `getline` until the stream is
   * exhausted and pushes each one.
   */
  method SplitStr(str: string, delim: char) returns (tokens: seq<string>)
    ensures tokens == Split(str, delim)
    ensures forall k :: 0 <= k < |tokens| ==> delim !in tokens[k]
    ensures Join(tokens, delim) + Trailing(str, delim) == str
    ensures tokens == [] <==> str == []
  {
    tokens := [];
    var i := 0;
    while i < |str|
      invariant i <= |str|
      invariant tokens + SplitFrom(str, delim, i) == Split(str, delim)
      decreases |str| - i
    {
      ghost var start := i;
      var token;
      token, i := Getline(str, delim, i);
      GetlineStep(tokens, token, SplitFrom(str, delim, i), SplitFrom(str, delim, start), Split(str, delim));
      tokens := tokens + [token];
    }
    SplitTokens(str, delim, 0);
    SplitJoin(str, delim, 0);
    assert str[0..] == str;
  }
}

=== FILE: config_types.dfy ===
/** The records declared by `Config` (include/config.hpp). */
module ConfigTypes {

  /** `Config::Var`: a variable name and its value, both kept as text. */
  datatype Var = Var(name: string, value: string)

  /** `Config::Section`: a section name and its variables in file order. */
  datatype Section = Section(name: string, vars: seq<Var>)

  /** Text the parser leaves in names and values: no blank, tab, carriage return or `=`. */
  predicate Clean(s: string)
  {
    ' ' !in s && '\t' !in s && '\r' !in s && '=' !in s
  }
}

=== FILE: game_object.dfy ===
/**
 * `GameObject` (src/game_object.cpp): position, velocity, mass and name of a
 * simulated object, the static counter that names new objects, and the
 * pure calculations between two objects.
 *
 * Floating-point kernels (gravitation, acceleration, `atan2` in degrees,
 * angle to direction vector, and the per-type position advance) are not
 * modelled: they are the fields of a `Physics` value every caller passes
 * in, so what is proved holds for any choice of them.
 */
module GameObject {
  import opened Numeric
  import opened Vectors

  /** `GameObject::Type`. */
  datatype Kind = CelestialBody | Unknown

  /** The fields `compare` looks at. */
  datatype BodyState = BodyState(pos: Vec, vel: Vec, mass: real)

  datatype Physics = Physics(
    /** `G * m1 * m2 / d2` in single precision: (G, own mass, other mass, squared distance). */
    gravitation: (real, real, real, real) -> real,
    /** `F / mass` in single precision: (force, own mass). */
    acceleration: (real, real) -> real,
    /** `atan2(y, x) * 180 / pi` in single precision: (y, x). */
    atan2Deg: (real, real) -> real,
    /** `calc_angle_to_vec`: the unit vector `(sin, -cos)` of an angle in degrees. */
    angleToVec: real -> Vec,
    /** The overridden `update(time)` of an object of the given kind. */
    advance: (Kind, BodyState, real) -> BodyState)

  /** `atan2` returns a value in [-pi, pi] (C11 section 7.12.4.4), so degrees in [-180, 180]. */
  ghost predicate Atan2InRange(phys: Physics)
  {
    forall y, x :: -180.0 <= phys.atan2Deg(y, x) <= 180.0
  }

  /** The branch of `calc_angle`: a negative angle is shifted by 360, then 90 is subtracted. */
  function NormaliseAngle(raw: real): (r: real)
    ensures -180.0 <= raw <= 180.0 ==> -90.0 <= r < 270.0
    ensures r + 90.0 == raw || r + 90.0 == raw + 360.0
  {
    var angle := if raw < 0.0 then raw + 360.0 else raw;
    angle - 90.0
  }

  /** `calc_distance_sq` between two positions. */
  function DistSq(p: Vec, q: Vec): (r: real)
    ensures r >= 0.0
    ensures r == 0.0 <==> p == q
  {
    NormSq(Sub(p, q))
  }

  /** The squared distance does not depend on which object asks. */
  lemma DistSqSymmetric(p: Vec, q: Vec)
    ensures DistSq(p, q) == DistSq(q, p)
  {
    SubFlip(p, q);
  }

  /** The direction-dependent part of `calc_angle` from `self` to `other`. */
  function Angle(phys: Physics, self: BodyState, other: BodyState): (r: real)
    ensures Atan2InRange(phys) ==> -90.0 <= r < 270.0
  {
    var d := Sub(self.pos, other.pos);
    NormaliseAngle(phys.atan2Deg(d.y, d.x))
  }

  /**
   * The static `GameObject::id`: an `unsigned int` that every construction
   * increments and every destruction decrements, both modulo 2^32. The
   * ghost counts record how many of each happened.
   */
  class IdCounter {
    var id: nat
    ghost var created: nat
    ghost var destroyed: nat

    /** The counter is the number of live objects, modulo 2^32. */
    ghost predicate Valid()
      reads this
    {
      id < UINT_MODULUS && id == (created - destroyed) % UINT_MODULUS
    }

    /** The counter shared by all objects starts at 0. */
    constructor ()
      ensures Valid() && id == 0 && created == 0 && destroyed == 0
    {
      id, created, destroyed := 0, 0, 0;
    }
  }

  class GameObject {
    const kind: Kind
    var pos: Vec
    var vel: Vec
    var mass: real
    var name: string

    function State(): BodyState
      reads this
    {
      BodyState(pos, vel, mass)
    }

    /**
     * `GameObject(type)`: the object is named by the decimal rendering of
     * the counter, which is then incremented. Position and velocity are
     * `sf::Vector2f`s, which default to (0, 0); the mass is left
     * uninitialised.
     */
    constructor (kind: Kind, ids: IdCounter)
      requires ids.Valid()
      modifies ids
      ensures this.kind == kind && name == Decimal(old(ids.id))
      ensures pos == Vec(0.0, 0.0) && vel == Vec(0.0, 0.0)
      ensures ids.id == (old(ids.id) + 1) % UINT_MODULUS
      ensures ids.created == old(ids.created) + 1 && ids.destroyed == old(ids.destroyed)
      ensures ids.Valid()
    {
      this.kind := kind;
      pos, vel := Vec(0.0, 0.0), Vec(0.0, 0.0);
      name := Decimal(ids.id);
      ids.id := (ids.id + 1) % UINT_MODULUS;
      ids.created := ids.created + 1;
    }

    /** `~GameObject()`: the counter is decremented, wrapping from 0 to 2^32 - 1. */
    method Destroy(ids: IdCounter)
      requires ids.Valid()
      modifies ids
      ensures ids.id == (old(ids.id) - 1) % UINT_MODULUS
      ensures ids.created == old(ids.created) && ids.destroyed == old(ids.destroyed) + 1
      ensures ids.Valid()
    {
      ids.id := (ids.id - 1) % UINT_MODULUS;
      ids.destroyed := ids.destroyed + 1;
    }

    function GetPos(): Vec
      reads this
    {
      pos
    }

    function GetVel(): Vec
      reads this
    {
      vel
    }

    function GetMass(): real
      reads this
    {
      mass
    }

    function GetName(): string
      reads this
    {
      name
    }

    /** `set_pos(pos)`: `get_pos` then returns `p`; nothing else changes. */
    method SetPos(p: Vec)
      modifies this
      ensures GetPos() == p
      ensures vel == old(vel) && mass == old(mass) && name == old(name)
    {
      pos := p;
    }

    /** `set_pos(p_x, p_y)`. */
    method SetPosXY(x: real, y: real)
      modifies this
      ensures GetPos() == Vec(x, y)
      ensures vel == old(vel) && mass == old(mass) && name == old(name)
    {
      SetPos(Vec(x, y));
    }

    /** `set_vel(vel)`: `get_vel` then returns `v`; nothing else changes. */
    method SetVel(v: Vec)
      modifies this
      ensures GetVel() == v
      ensures pos == old(pos) && mass == old(mass) && name == old(name)
    {
      vel := v;
    }

    /** `set_vel(v_x, v_y)`. */
    method SetVelXY(x: real, y: real)
      modifies this
      ensures GetVel() == Vec(x, y)
      ensures pos == old(pos) && mass == old(mass) && name == old(name)
    {
      SetVel(Vec(x, y));
    }

    /** `set_name(name)`: `get_name` then returns `n`; nothing else changes. */
    method SetName(n: string)
      modifies this
      ensures GetName() == n
      ensures State() == old(State())
    {
      name := n;
    }

    /** `accelerate(a)`: `vel += a`, componentwise; position, mass and name are unchanged. */
    method Accelerate(a: Vec)
      modifies this
      ensures vel.x == old(vel.x) + a.x && vel.y == old(vel.y) + a.y
      ensures pos == old(pos) && mass == old(mass) && name == old(name)
    {
      vel := Add(vel, a);
    }

    /** `accelerate(a_x, a_y)`. */
    method AccelerateXY(x: real, y: real)
      modifies this
      ensures vel == Add(old(vel), Vec(x, y))
      ensures pos == old(pos) && mass == old(mass) && name == old(name)
    {
      Accelerate(Vec(x, y));
    }

    /** The virtual `update(time)` of the object's dynamic type. */
    method Advance(phys: Physics, time: real)
      modifies this
      ensures State() == phys.advance(kind, old(State()), time)
      ensures name == old(name)
    {
      var s := phys.advance(kind, State(), time);
      pos, vel, mass := s.pos, s.vel, s.mass;
    }

    /** `compare(obj)`: position, velocity and mass are pairwise equal. */
    predicate Compare(other: GameObject)
      reads this, other
      ensures Compare(other) <==> State() == other.State()
    {
      pos == other.pos && vel == other.vel && mass == other.mass
    }

    /** `calc_distance_sq(obj)`. */
    function CalcDistanceSq(other: GameObject): (r: real)
      reads this, other
      ensures r >= 0.0
      ensures r == 0.0 <==> GetPos() == other.GetPos()
    {
      DistSq(pos, other.pos)
    }

    /** `calc_gravitation(G, obj)`. */
    function CalcGravitation(phys: Physics, G: real, other: GameObject): real
      reads this, other
    {
      phys.gravitation(G, mass, other.mass, CalcDistanceSq(other))
    }

    /** `calc_acceleration(F)`. */
    function CalcAcceleration(phys: Physics, F: real): real
      reads this
    {
      phys.acceleration(F, mass)
    }

    /** `calc_angle(obj)`: within [-90, 270) whenever `atan2` is within [-180, 180] degrees. */
    function CalcAngle(phys: Physics, other: GameObject): (r: real)
      reads this, other
      ensures Atan2InRange(phys) ==> -90.0 <= r < 270.0
    {
      Angle(phys, State(), other.State())
    }
  }

  /** `compare` is reflexive and symmetric over exact reals. */
  lemma CompareEquivalence(a: GameObject, b: GameObject)
    ensures a.Compare(a)
    ensures a.Compare(b) <==> b.Compare(a)
  {
  }

  /**
   * The counter counts live objects, not objects ever made: after one of
   * two objects is destroyed, the next object gets the name of the
   * surviving one.
   */
  method NameReuse() returns (first: GameObject, second: GameObject, third: GameObject)
    ensures second != third && second.name == third.name == "1"
  {
    var ids := new IdCounter();
    first := new GameObject(Unknown, ids);
    second := new GameObject(Unknown, ids);
    first.Destroy(ids);
    third := new GameObject(Unknown, ids);
  }
}

=== FILE: numeric.dfy ===
/** Option type shared by the whole model. */
module Options {
  datatype Option<+T> = None | Some(value: T)
}

/**
 * The two C/C++ library conversions the model needs: `std::to_string` on an
 * `unsigned int` (decimal rendering) and `std::stoi` (built on `strtol`,
 * C11 section 7.22.1.4, base 10).
 */
module Numeric {
  import opened Options

  const INT_MIN: int := -0x8000_0000
  const INT_MAX: int := 0x7FFF_FFFF
  /** 2^32: the number of values of a 32-bit `unsigned int`. */
  const UINT_MODULUS: int := 0x1_0000_0000

  predicate IsDigit(c: char) { '0' <= c <= '9' }

  /** `isspace` in the "C" locale: space, \t, \n, \v, \f, \r. */
  predicate IsSpace(c: char) {
    c == ' ' || c == '\t' || c == '\n' || c == 11 as char || c == 12 as char || c == '\r'
  }

  function DigitChar(d: nat): (c: char)
    requires d < 10
    ensures IsDigit(c)
  {
    ('0' as int + d) as char
  }

  /** Value of a string of decimal digits, most significant first. */
  function DigitsValue(ds: string): nat
    requires forall k :: 0 <= k < |ds| ==> IsDigit(ds[k])
  {
    if ds == [] then 0
    else
      assert IsDigit(ds[|ds| - 1]);
      DigitsValue(ds[..|ds| - 1]) * 10 + (ds[|ds| - 1] as int - '0' as int)
  }

  /** `std::to_string(n)`: the shortest decimal numeral of `n`. */
  function Decimal(n: nat): (s: string)
    ensures |s| > 0
    ensures forall k :: 0 <= k < |s| ==> IsDigit(s[k])
    ensures s[0] == '0' ==> n == 0
  {
    if n < 10 then [DigitChar(n)] else Decimal(n / 10) + [DigitChar(n % 10)]
  }

  /** Reading back the numeral gives the number. */
  lemma {:induction false} DecimalValue(n: nat)
    ensures DigitsValue(Decimal(n)) == n
  {
    if n >= 10 {
      DecimalValue(n / 10);
      var s := Decimal(n);
      assert s[..|s| - 1] == Decimal(n / 10);
    }
  }

  /** Two numbers with the same decimal name are equal. */
  lemma DecimalInjective(m: nat, n: nat)
    requires Decimal(m) == Decimal(n)
    ensures m == n
  {
    DecimalValue(m);
    DecimalValue(n);
  }

  /** Index of the first character at or after `from` that is not `isspace`. */
  function SkipSpace(s: string, from: nat): (r: nat)
    requires from <= |s|
    ensures from <= r <= |s|
    ensures r < |s| ==> !IsSpace(s[r])
    ensures forall k :: from <= k < r ==> IsSpace(s[k])
    decreases |s| - from
  {
    if from == |s| || !IsSpace(s[from]) then from else SkipSpace(s, from + 1)
  }

  /** End of the maximal run of decimal digits starting at `from`. */
  function DigitsEnd(s: string, from: nat): (r: nat)
    requires from <= |s|
    ensures from <= r <= |s|
    ensures r < |s| ==> !IsDigit(s[r])
    ensures forall k :: from <= k < r ==> IsDigit(s[k])
    decreases |s| - from
  {
    if from == |s| || !IsDigit(s[from]) then from else DigitsEnd(s, from + 1)
  }

  /**
   * `std::stoi(s)`: skip leading white space, an optional sign, then the
   * longest run of decimal digits; trailing text is ignored. `None` stands
   * for the two exceptions: `invalid_argument` when no digit follows, and
   * `out_of_range` when the value does not fit an `int`.
   */
  function StoI(s: string): Option<int>
  {
    var w := SkipSpace(s, 0);
    var neg := w < |s| && s[w] == '-';
    var d := if w < |s| && (s[w] == '-' || s[w] == '+') then w + 1 else w;
    var e := DigitsEnd(s, d);
    if e == d then None
    else
      var m: int := DigitsValue(s[d..e]);
      var v := if neg then -m else m;
      if INT_MIN <= v <= INT_MAX then Some(v) else None
  }

  /** A numeral followed by text that is not a digit still reads as its value. */
  lemma StoIOfDecimal(n: nat, rest: string)
    requires n <= INT_MAX
    requires rest == [] || !IsDigit(rest[0])
    ensures StoI(Decimal(n) + rest) == Some(n)
  {
    var s := Decimal(n) + rest;
    var ds := Decimal(n);
    assert SkipSpace(s, 0) == 0 by { assert IsDigit(s[0]); }
    assert DigitsEnd(s, 0) == |ds| by {
      assert forall k :: 0 <= k < |ds| ==> IsDigit(s[k]);
      DigitsRunEnds(s, 0, |ds|);
    }
    assert s[0..|ds|] == ds;
    DecimalValue(n);
  }

  lemma {:induction false} DigitsRunEnds(s: string, from: nat, e: nat)
    requires from <= e <= |s|
    requires forall k :: from <= k < e ==> IsDigit(s[k])
    requires e < |s| ==> !IsDigit(s[e])
    ensures DigitsEnd(s, from) == e
    decreases e - from
  {
    if from < e {
      DigitsRunEnds(s, from + 1, e);
    }
  }
}

=== FILE: vectors.dfy ===
/**
 * `sf::Vector2f` over the reals: the componentwise operators the game
 * objects use. Single-precision rounding is not modelled.
 */
module Vectors {

  datatype Vec = Vec(x: real, y: real)

  /** `a + b` and `a += b`. */
  function Add(a: Vec, b: Vec): Vec
  {
    Vec(a.x + b.x, a.y + b.y)
  }

  /** `a - b`. */
  function Sub(a: Vec, b: Vec): Vec
  {
    Vec(a.x - b.x, a.y - b.y)
  }

  /** `a * k`. */
  function Scale(a: Vec, k: real): Vec
  {
    Vec(a.x * k, a.y * k)
  }

  /** Squared length `x * x + y * y`: never negative, and zero only for the zero vector. */
  function NormSq(a: Vec): (r: real)
    ensures r >= 0.0
    ensures r == 0.0 <==> a.x == 0.0 && a.y == 0.0
  {
    Square(a.x, a.x * a.x);
    Square(a.y, a.y * a.y);
    a.x * a.x + a.y * a.y
  }

  /** A square is never negative, and zero only for zero. */
  lemma Square(t: real, s: real)
    requires s == t * t
    ensures s >= 0.0
    ensures s == 0.0 <==> t == 0.0
  {
    if t > 0.0 {
      Positive(t, t, s);
    } else if t < 0.0 {
      Positive(-t, -t, s);
    }
  }

  lemma Positive(a: real, b: real, s: real)
    requires a > 0.0 && b > 0.0 && s == a * b
    ensures s > 0.0
  {
  }

  /** Subtracting a vector from itself is the only way to get zero. */
  lemma SubZero(a: Vec, b: Vec)
    ensures Sub(a, b) == Vec(0.0, 0.0) <==> a == b
  {
  }

  /** `b - a` is `a - b` with both components negated, so the two have the same squared length. */
  lemma SubFlip(a: Vec, b: Vec)
    ensures NormSq(Sub(a, b)) == NormSq(Sub(b, a))
  {
    var d, e := Sub(a, b), Sub(b, a);
    assert e.x == -d.x && e.y == -d.y;
    assert e.x * e.x == d.x * d.x;
    assert e.y * e.y == d.y * d.y;
  }
}

=== FILE: world.dfy ===
/**
 * `World` (src/world.cpp): the list of simulated objects and the update
 * schedule that applies gravity between them. The schedule is stated on
 * values first (`Gravitate`, `Step`, `Pass`) and the imperative methods of
 * the `World` class are proved to follow it.
 */
module World {
  import opened Numeric
  import opened Vectors
  import opened GameObject

  /** What the update schedule sees of one object: its type and its state. */
  datatype Body = Body(kind: Kind, state: BodyState)

  /**
   * The velocity change one other object causes in `update(time, CelestialBody*)`:
   * the gravitational force turned into an acceleration, pointed along the
   * angle between the two, and multiplied by the time step.
   */
  function Pull(phys: Physics, G: real, time: real, self: BodyState, other: BodyState): Vec
  {
    var F := phys.gravitation(G, self.mass, other.mass, DistSq(self.pos, other.pos));
    var a := phys.acceleration(F, self.mass);
    var angle := Angle(phys, self, other);
    Scale(Scale(phys.angleToVec(angle), a), time)
  }

  /**
   * One turn of the loop over `objects`: skipped when the other object is
   * the body itself or `compare` finds it equal, otherwise one `accelerate`.
   */
  function PullFrom(phys: Physics, G: real, time: real, self: BodyState, other: Body, isSelf: bool): (r: BodyState)
    ensures r.pos == self.pos && r.mass == self.mass
    ensures isSelf || self == other.state ==> r == self
    ensures !isSelf && self != other.state ==> r.vel == Add(self.vel, Pull(phys, G, time, self, other.state))
  {
    if isSelf || self == other.state then self
    else self.(vel := Add(self.vel, Pull(phys, G, time, self, other.state)))
  }

  /**
   * The state of the body at index `me` after the loop has visited
   * `others`, in order, starting from `self`. Each pull is computed from
   * the velocity the previous pulls left, not from a sum.
   */
  function Gravitate(phys: Physics, G: real, time: real, self: BodyState, others: seq<Body>, me: nat): (r: BodyState)
    ensures r.pos == self.pos && r.mass == self.mass
    decreases |others|
  {
    if others == [] then self
    else
      var n := |others| - 1;
      PullFrom(phys, G, time, Gravitate(phys, G, time, self, others[..n], me), others[n], n == me)
  }

  /**
   * `update(time)` applied to the object at index `i`: a celestial body is
   * pulled by every other object and then advanced; any other type is only
   * advanced.
   */
  function Step(phys: Physics, G: real, time: real, bodies: seq<Body>, i: nat): (r: Body)
    requires i < |bodies|
    ensures r.kind == bodies[i].kind
  {
    var b := bodies[i];
    var s := if b.kind == CelestialBody then Gravitate(phys, G, time, b.state, bodies, i) else b.state;
    Body(b.kind, phys.advance(b.kind, s, time))
  }

  /**
   * The objects after the first `n` turns of `update(time)`: each turn
   * replaces one object, in collection order, and later turns see the
   * objects earlier turns replaced.
   */
  function Pass(phys: Physics, G: real, time: real, bodies: seq<Body>, n: nat): (r: seq<Body>)
    requires n <= |bodies|
    ensures |r| == |bodies|
    ensures forall k :: 0 <= k < |bodies| ==> r[k].kind == bodies[k].kind
    ensures forall k :: n <= k < |bodies| ==> r[k] == bodies[k]
  {
    if n == 0 then bodies
    else
      var prev := Pass(phys, G, time, bodies, n - 1);
      prev[n - 1 := Step(phys, G, time, prev, n - 1)]
  }

  /** The loop over `others` visits one more object. */
  lemma GravitateStep(phys: Physics, G: real, time: real, self: BodyState, others: seq<Body>, k: nat, me: nat)
    requires k < |others|
    ensures Gravitate(phys, G, time, self, others[..k + 1], me)
      == PullFrom(phys, G, time, Gravitate(phys, G, time, self, others[..k], me), others[k], k == me)
  {
    assert others[..k + 1][..k] == others[..k];
  }

  /** Turn `i` of a pass replaces exactly the object at index `i`. */
  lemma PassStep(phys: Physics, G: real, time: real, bodies: seq<Body>, i: nat)
    requires i < |bodies|
    ensures Pass(phys, G, time, bodies, i + 1) == Pass(phys, G, time, bodies, i)[i := Step(phys, G, time, Pass(phys, G, time, bodies, i), i)]
  {
  }

  /** Once its turn has come, an object is not touched again in the same pass. */
  lemma {:induction false} PassKeeps(phys: Physics, G: real, time: real, bodies: seq<Body>, i: nat, n: nat)
    requires i < n <= |bodies|
    ensures Pass(phys, G, time, bodies, n)[i] == Step(phys, G, time, Pass(phys, G, time, bodies, i), i)
    decreases n
  {
    if n > i + 1 {
      PassKeeps(phys, G, time, bodies, i, n - 1);
    }
  }

  /**
   * What the object at index `i` sees during its turn: every earlier
   * object already in its final state for this pass, itself and every
   * later object as they were before the pass.
   */
  lemma PassSnapshot(phys: Physics, G: real, time: real, bodies: seq<Body>, i: nat)
    requires i < |bodies|
    ensures forall k :: 0 <= k < i ==> Pass(phys, G, time, bodies, i)[k] == Pass(phys, G, time, bodies, |bodies|)[k]
    ensures forall k :: i <= k < |bodies| ==> Pass(phys, G, time, bodies, i)[k] == bodies[k]
  {
    forall k | 0 <= k < i
      ensures Pass(phys, G, time, bodies, i)[k] == Pass(phys, G, time, bodies, |bodies|)[k]
    {
      PassKeeps(phys, G, time, bodies, k, i);
      PassKeeps(phys, G, time, bodies, k, |bodies|);
    }
  }

  /** An object that is not a celestial body is only advanced. */
  lemma PlainStep(phys: Physics, G: real, time: real, bodies: seq<Body>, i: nat)
    requires i < |bodies| && bodies[i].kind != CelestialBody
    ensures Step(phys, G, time, bodies, i).state == phys.advance(bodies[i].kind, bodies[i].state, time)
  {
  }

  /**
   * When every object is the body itself or compares equal to it, no
   * object pulls, so the body keeps its velocity.
   */
  lemma {:induction false} GravitateAllSkipped(phys: Physics, G: real, time: real, self: BodyState, others: seq<Body>, me: nat)
    requires forall k :: 0 <= k < |others| && k != me ==> others[k].state == self
    ensures Gravitate(phys, G, time, self, others, me) == self
    decreases |others|
  {
    if others != [] {
      var n := |others| - 1;
      GravitateAllSkipped(phys, G, time, self, others[..n], me);
      GravitateStep(phys, G, time, self, others, n, me);
      assert others[..n + 1] == others;
    }
  }

  /** A body alone in the world is never pulled: it is only advanced. */
  lemma LoneBody(phys: Physics, G: real, time: real, b: Body)
    ensures Pass(phys, G, time, [b], 1) == [Body(b.kind, phys.advance(b.kind, b.state, time))]
  {
    GravitateAllSkipped(phys, G, time, b.state, [b], 0);
  }

  /**
   * Two celestial bodies in distinct states: the first is pulled once by
   * the second as it was, the second once by the first as the first's turn
   * left it.
   */
  lemma TwoBodies(phys: Physics, G: real, time: real, a: BodyState, b: BodyState)
    requires a != b
    requires phys.advance(CelestialBody, a.(vel := Add(a.vel, Pull(phys, G, time, a, b))), time) != b
    ensures
      var a' := phys.advance(CelestialBody, a.(vel := Add(a.vel, Pull(phys, G, time, a, b))), time);
      Pass(phys, G, time, [Body(CelestialBody, a), Body(CelestialBody, b)], 2)
        == [Body(CelestialBody, a'), Body(CelestialBody, phys.advance(CelestialBody, b.(vel := Add(b.vel, Pull(phys, G, time, b, a'))), time))]
  {
    var B := [Body(CelestialBody, a), Body(CelestialBody, b)];
    assert B[..0] == [] && B[..1] == [B[0]];
    var a1 := a.(vel := Add(a.vel, Pull(phys, G, time, a, b)));
    assert Gravitate(phys, G, time, a, B[..1], 0) == a;
    assert Gravitate(phys, G, time, a, B, 0) == a1;
    assert Step(phys, G, time, B, 0) == Body(CelestialBody, phys.advance(CelestialBody, a1, time));
    assert Pass(phys, G, time, B, 0) == B;
    var P1 := Pass(phys, G, time, B, 1);
    assert P1 == B[0 := Step(phys, G, time, B, 0)];
    assert P1 == [Body(CelestialBody, phys.advance(CelestialBody, a1, time)), B[1]];
    assert P1[..0] == [] && P1[..1] == [P1[0]];
    assert Gravitate(phys, G, time, b, P1[..1], 1) == b.(vel := Add(b.vel, Pull(phys, G, time, b, P1[0].state)));
  }

  /**
   * The objects a world owns, as the pointers `objects` holds: the
   * destructor skips null entries; `update` dereferences every entry.
   */
  predicate NonNull(objs: seq<GameObject?>)
  {
    forall k :: 0 <= k < |objs| ==> objs[k] != null
  }

  /** No object is held twice. */
  predicate Distinct(objs: seq<GameObject?>)
  {
    forall j, k :: 0 <= j < k < |objs| ==> objs[j] != objs[k]
  }

  /**
   * No non-null object is held twice, so the destructor deletes each owned
   * object once; any number of null entries is allowed.
   */
  predicate DistinctOwned(objs: seq<GameObject?>)
  {
    forall j, k :: 0 <= j < k < |objs| && objs[j] != null ==> objs[j] != objs[k]
  }

  /** The type and state of every object, in collection order. */
  ghost function Bodies(objs: seq<GameObject?>): (r: seq<Body>)
    requires NonNull(objs)
    reads set k | 0 <= k < |objs| :: objs[k]
    ensures |r| == |objs|
  {
    if objs == [] then []
    else Bodies(objs[..|objs| - 1]) + [Body(objs[|objs| - 1].kind, objs[|objs| - 1].State())]
  }

  /** Entry `k` of `Bodies` is the type and current state of object `k`. */
  lemma {:induction false} BodiesAt(objs: seq<GameObject?>)
    requires NonNull(objs)
    ensures forall k :: 0 <= k < |objs| ==> Bodies(objs)[k] == Body(objs[k].kind, objs[k].State())
    decreases |objs|
  {
    if objs != [] {
      BodiesAt(objs[..|objs| - 1]);
    }
  }

  /** The number of non-null entries: the objects the destructor deletes. */
  function Owned(objs: seq<GameObject?>): (r: nat)
    ensures r <= |objs|
    ensures r == |objs| <==> NonNull(objs)
  {
    if objs == [] then 0
    else Owned(objs[..|objs| - 1]) + (if objs[|objs| - 1] != null then 1 else 0)
  }

  class World {
    const G: real
    var objects: seq<GameObject?>

    /** `World(G)`: the gravitational constant is fixed here; the world starts empty. */
    constructor (G: real)
      ensures this.G == G && objects == []
    {
      this.G := G;
      objects := [];
    }

    /** `spawn(obj)`: appended at the end; the earlier entries and their order are kept. */
    method Spawn(obj: GameObject?)
      modifies this
      ensures objects == old(objects) + [obj]
    {
      objects := objects + [obj];
    }

    /** `get_objs()`: a copy of the list, in insertion order. */
    function GetObjs(): seq<GameObject?>
      reads this
    {
      objects
    }

    /** `update(time, GameObject*)`: the object's own `update`. */
    method UpdateObject(phys: Physics, time: real, obj: GameObject)
      modifies obj
      ensures obj.State() == phys.advance(obj.kind, old(obj.State()), time)
      ensures obj.name == old(obj.name)
    {
      obj.Advance(phys, time);
    }

    /**
     * `update(time, CelestialBody*)` on the object at index `me`: one pull
     * per object that `compare` does not find equal, in collection order,
     * then the object's own `update`. Only `obj` changes.
     */
    method UpdateCelestial(phys: Physics, time: real, obj: GameObject, ghost me: nat)
      requires NonNull(objects) && Distinct(objects)
      requires me < |objects| && objects[me] == obj
      modifies obj
      ensures obj.State() == phys.advance(obj.kind, Gravitate(phys, G, time, old(obj.State()), old(Bodies(objects)), me), time)
      ensures obj.name == old(obj.name)
    {
      PullAll(phys, time, obj, me);
      obj.Advance(phys, time);
    }

    /** The loop of the celestial `update` overload: one `PullOnce` per object, in collection order. */
    method PullAll(phys: Physics, time: real, obj: GameObject, ghost me: nat)
      requires NonNull(objects) && Distinct(objects)
      requires me < |objects| && objects[me] == obj
      modifies obj
      ensures obj.State() == Gravitate(phys, G, time, old(obj.State()), old(Bodies(objects)), me)
      ensures obj.name == old(obj.name)
    {
      ghost var B := Bodies(objects);
      BodiesAt(objects);
      ghost var s := obj.State();
      for k := 0 to |objects|
        invariant obj.State() == Gravitate(phys, G, time, s, B[..k], me)
        invariant obj.name == old(obj.name)
        invariant forall j :: 0 <= j < |objects| && j != me ==> objects[j].State() == B[j].state
      {
        PullOnce(phys, time, obj, objects[k]);
        GravitateStep(phys, G, time, s, B, k, me);
      }
      assert B[..|objects|] == B;
    }

    /**
     * The body of the loop in `update(time, CelestialBody*)` for one
     * `other`: nothing when `compare` finds the two equal, which it always
     * does when `other` is `obj` itself, otherwise one `accelerate`.
     */
    method PullOnce(phys: Physics, time: real, obj: GameObject, other: GameObject)
      modifies obj
      ensures obj.State() == PullFrom(phys, G, time, old(obj.State()), Body(other.kind, old(other.State())), other == obj)
      ensures obj.name == old(obj.name)
    {
      if !obj.Compare(other) {
        var F := obj.CalcGravitation(phys, G, other);
        var a := obj.CalcAcceleration(phys, F);
        var angle := obj.CalcAngle(phys, other);
        var acceleration := Scale(phys.angleToVec(angle), a);
        obj.Accelerate(Scale(acceleration, time));
      }
    }

    /**
     * `update(time)`: every object once, in collection order, dispatched on
     * its type. The list itself is not changed.
     */
    method Update(phys: Physics, time: real)
      requires NonNull(objects) && Distinct(objects)
      modifies set k | 0 <= k < |objects| :: objects[k]
      ensures objects == old(objects)
      ensures Bodies(objects) == Pass(phys, G, time, old(Bodies(objects)), |objects|)
    {
      ghost var B := Bodies(objects);
      for i := 0 to |objects|
        invariant Bodies(objects) == Pass(phys, G, time, B, i)
      {
        UpdateAt(phys, time, i);
        PassStep(phys, G, time, B, i);
      }
    }

    /** One turn of `update(time)`: the object at index `i` is replaced by its `Step`; no other object changes. */
    method UpdateAt(phys: Physics, time: real, i: nat)
      requires NonNull(objects) && Distinct(objects) && i < |objects|
      modifies objects[i]
      ensures Bodies(objects) == old(Bodies(objects))[i := Step(phys, G, time, old(Bodies(objects)), i)]
      ensures objects[i].name == old(objects[i].name)
    {
      var obj := objects[i];
      BodiesAt(objects);
      if obj.kind == CelestialBody {
        UpdateCelestial(phys, time, obj, i);
      } else {
        UpdateObject(phys, time, obj);
      }
      BodiesAt(objects);
    }

    /**
     * `~World()`: every non-null entry is deleted, which runs its
     * destructor and so decrements the id counter once per object; the
     * list is then cleared.
     */
    method Destroy(ids: IdCounter)
      requires ids.Valid()
      requires DistinctOwned(objects)
      modifies this, ids
      ensures objects == []
      ensures ids.Valid()
      ensures ids.created == old(ids.created) && ids.destroyed == old(ids.destroyed) + Owned(old(objects))
    {
      var objs := objects;
      for i := 0 to |objs|
        invariant ids.Valid()
        invariant ids.created == old(ids.created) && ids.destroyed == old(ids.destroyed) + Owned(objs[..i])
      {
        assert objs[..i + 1][..i] == objs[..i];
        if objs[i] != null {
          objs[i].Destroy(ids);
        }
      }
      assert objs[..|objs|] == objs;
      objects := [];
    }
  }

  /** Spawning two objects into a new world lists them in that order. */
  method SpawnOrder(a: GameObject, b: GameObject) returns (w: World)
    ensures w.GetObjs() == [a, b]
  {
    w := new World(1.0);
    w.Spawn(a);
    w.Spawn(b);
  }
}
